=== FILE: README.md ===
# A Dafny model of the angular-drag engine core

This project models the decision logic of a small Angular drag-and-drop engine
with four cooperating parts:

- `moveItemInArray` and `clamp`: the single-step reorder primitive
  (module `Reorder`, `reorder.dfy`).
- `DropListRefer`: one drop container. It covers hit-testing, the 5 % proximity
  margin, slot resolution from the pointer, the `_sortItem` decision ladder, and
  the `start` / `getItemIndex` / `drop` / `_reset` bookkeeping (module
  `DropListRefer`, `droplist.dfy`, with geometry in `geometry.dfy`).
- `DragDropRegistryService`: the process-wide registry of items, containers,
  active drags and document listeners (module `DragDropRegistry`,
  `registry.dfy`).
- `DragRefer`: the per-item gesture state machine. It covers pointer down, move
  and up, the start-delay gate, free translation, the container hand-off, the
  settle decision, the drop bookkeeping and `dispose` (module `DragRefer`,
  `drag.dfy`).

`scenario.dfy` (module `Scenarios`) walks one concrete gesture end to end.

## How the model is built

All state is immutable records, and every handler is a pure function from the
old state to the new one:

- A container is a `DropList`.
- An item's controller is a `Drag`.
- The registry is a `Registry`.
- The world an item acts on is a `World`: the registry, the containers by id,
  and an event log.

Notifications are appended to the log in emission order:

- The item-level ones are `beforeStarted`, `released`, `ended`, `exited`,
  `entered` and `dropped`.
- The container-level ones are `beforeStarted` and `dropped`.

Everything the browser supplies is an input:

- the pointer's page coordinates;
- the scroll position;
- the current time;
- the bounding rectangles of containers, items, placeholders and overlay
  children;
- whether the topmost element at the pointer lies inside a container;
- the transition duration.

A JavaScript `TypeError` (reading a property of `undefined`) is modelled as a
`Fault`. Changes made before the throw are kept. The fault shows up either in
the `Sorted` outcome of a sort step or as an `Uncaught` entry in the log.

An item listens to the registry's move and up streams through two separate
rxjs subscriptions, modelled as two flags. In rxjs, a subscriber whose handler
throws is unsubscribed. So a `TypeError` that escapes the move handler also
drops the item's move subscription: later moves are ignored, but the release
still ends the gesture.

The waiting between pointer-up and the drop is asynchronous in the source. It is
modelled as an explicit step, `SettleDrop`. `PointerUp` records how the drop
waits, either immediately or with a timeout, in the controller's `settling`
field.

### Where the code departs from its evident intent

The model follows the code in each of these places:

- `entered` always reports `currentIndex` 1 (drag-refer.ts:358).
- The item-level `dropped` reads `previousIndex` from the initial container
  after sorting, while that container is still dragging. When the item is
  dropped in its initial container, both indices are therefore the item's
  current index (`DragRefer.ItemDroppedPreviousIsCurrent`). The
  container-level `dropped` gets the index captured at start.
- Re-starting the sole active item re-runs the listener binding.
- `_siblings` is never assigned, so it is always empty. A hand-off therefore
  never happens in practice. The hand-off decision is still modelled in
  general, and `DragRefer.NoSiblingsNoHandOff` states the consequence.
- No code path moves the dragged item into the receiving container's lists, so
  the model promises no transfer.
- `_reset` leaves `lasteItem` and `lastePoint` alone.
- `dispose` reads the container without a guard. For an item without a
  container it throws after detaching the press listener and before
  unregistering, unsubscribing or completing anything.

## Model

| member | source | states |
|---|---|---|
| `Reorder.Clamp` | directive/controls-drop-ref.ts:74-76 | the result lies in [0, max] when max is non-negative and is 0 otherwise; in-range values are kept, too small ones become 0, too large ones become max |
| `Reorder.MoveItem` | directive/controls-drop-ref.ts:4-20 | the reorder keeps the length, is a permutation (same multiset), and puts the element from the clamped `from` at the clamped `to` |
| `Reorder.MoveItemInArray` | directive/controls-drop-ref.ts:4-20 | the in-place shifting loop computes exactly the reference "remove at from, insert at to" reorder |
| `Reorder.MoveItemPointwise` | directive/controls-drop-ref.ts:12-19 | every position of the result holds the element the one-step shift puts there |
| `Reorder.MoveForwardShifts` | directive/controls-drop-ref.ts:13-17 | for from < to, each position in [from, to) receives its right neighbour and `to` receives the moved element: a shift, not a swap |
| `Reorder.MoveBackwardShifts` | directive/controls-drop-ref.ts:13-17 | for to < from, each position in (to, from] receives its left neighbour and `to` receives the moved element |
| `Reorder.MoveOutsideUnchanged` | directive/controls-drop-ref.ts:15-17 | positions outside the closed range between from and to are unchanged |
| `Reorder.MoveClampsIndices` | directive/controls-drop-ref.ts:5-6 | out-of-range indices behave exactly as the nearest end |
| `Reorder.MoveSameSlotIsNoOp` | directive/controls-drop-ref.ts:8-10 | equal clamped indices, and every array of fewer than two elements, leave the array unchanged |
| `Reorder.MoveRoundTrip` | directive/controls-drop-ref.ts:4-20 | moving a to b and then b to a restores the original array |
| `Reorder.MoveCommutesWithMap` | directive/drop-list-refer.ts:157-158 | moving in a projection of a list equals projecting the moved list, which is why the positions and the items stay in step |
| `Geometry.NearIffScaled` | directive/drop-list-refer.ts:197-204 | the proximity test with the 0.05 margin is the same as the integer test with every side scaled by 20 |
| `Geometry.InsideImpliesNear` | directive/drop-list-refer.ts:197-204 | a point inside a rectangle of positive size is near it |
| `Geometry.FlatRectNeverNear` | directive/drop-list-refer.ts:197-204 | a rectangle of zero width is near no point, because the test is strict and the margin is zero |
| `DragDropRegistry.Bindings` | directive/drag-drop-registry.service.ts:31-63 | a touch gesture binds `touchmove`, `touchend` and `selectstart`, any other binds `mousemove`, `mouseup`, `selectstart` and `wheel`; the move event publishes pointer moves, the up event publishes pointer releases, and `selectstart` and `wheel` run the default-action guard |
| `DragDropRegistry.StartDragging` | directive/drag-drop-registry.service.ts:27-71 | afterwards the item is dragging; listeners are rebound only when the active set has exactly one item, and then they include the device's bindings; the invariant is kept |
| `DragDropRegistry.ClearGlobalListeners` | directive/drag-drop-registry.service.ts:90-96 | no listener is left bound and the sets are unchanged |
| `DragDropRegistry.StopDragging` | directive/drag-drop-registry.service.ts:82-88 | afterwards the item is not dragging; the listeners are cleared exactly when the active set becomes empty and kept otherwise; the invariant is kept |
| `DragDropRegistry.RemoveDragItem` | directive/drag-drop-registry.service.ts:97-100 | the item is unregistered and no longer dragging; the invariant is kept |
| `DragDropRegistry.RegisterDragItem` | directive/drag-drop-registry.service.ts:109-111 | the item is added to the registered items and nothing else changes |
| `DragDropRegistry.RegisterDropContainer` | directive/drag-drop-registry.service.ts:103-107 | the container is added to the registered containers and nothing else changes |
| `DragDropRegistry.PreventsDefault` | directive/drag-drop-registry.service.ts:72-76 | the guard cancels the default action exactly when some item is active |
| `DragDropRegistry.BoundGuardPrevents` | directive/drag-drop-registry.service.ts:51-62 | while the invariant holds, any bound `selectstart`/`wheel` guard cancels the default action |
| `DragDropRegistry.FirstMouseStartBindsFour` | directive/drag-drop-registry.service.ts:30-63 | the first mouse drag binds exactly mousemove (publish moves), mouseup (publish releases), selectstart and wheel (both the default-action guard) |
| `DragDropRegistry.FirstTouchStartBindsThree` | directive/drag-drop-registry.service.ts:30-63 | the first touch drag binds exactly touchmove (publish moves), touchend (publish releases) and selectstart (the default-action guard), with no wheel |
| `DragDropRegistry.SecondStartDoesNotRebind` | directive/drag-drop-registry.service.ts:28-30 | a second distinct item makes the active set size 2 and leaves the listeners alone |
| `DragDropRegistry.RestartOfSoleItemRebinds` | directive/drag-drop-registry.service.ts:28-30 | re-starting the sole active item runs the binding again |
| `DragDropRegistry.StopIsHarmlessAndIdempotent` | directive/drag-drop-registry.service.ts:82-88 | stopping twice equals stopping once, and stopping an inactive item changes nothing |
| `DragDropRegistry.RegistrationIsIdempotent` | directive/drag-drop-registry.service.ts:103-111 | registering an item or a container twice equals registering it once |
| `DragDropRegistry.RunKeepsListenersTracking` | directive/drag-drop-registry.service.ts:27-111 | for any sequence of calls, listeners stay bound exactly while the active set is non-empty |
| `DragDropRegistry.FromInitialListenersTrackActive` | directive/drag-drop-registry.service.ts:11-22 | starting from the constructed registry, the invariant holds after every sequence of calls |
| `DropListRefer.Create` | directive/drop-list-refer.ts:16-29 | a new container is not dragging, has no cached positions, overlay or siblings, and holds the given items |
| `DropListRefer.FindIndex` | directive/drop-list-refer.ts:284-294 | the least index whose element matches, or -1 exactly when none matches |
| `DropListRefer.IndexOfDragIsFirst` | directive/drop-list-refer.ts:126 | the first cached position holding the item is its index |
| `DropListRefer.ReceivingImpliesNear` | directive/drop-list-refer.ts:63-65 | a receiving container has the point over its rectangle and therefore near it |
| `DropListRefer.SiblingFromPosition` | directive/drop-list-refer.ts:45-47 | the result is the first sibling in list order that can receive, or none exactly when no sibling can |
| `DropListRefer.NoSiblingsNoneFound` | directive/drop-list-refer.ts:16 | with the sibling list left empty no sibling is ever found |
| `DropListRefer.ItemIndexFromPointer` | directive/drop-list-refer.ts:205-220 | the result is the first child other than the current one whose rectangle contains the point; it is the current index only with fewer than two children; -1 means no other child contains the point |
| `DropListRefer.SingleChildResolvesToItself` | directive/drop-list-refer.ts:209-210 | with one child the dragged item's own slot is resolved |
| `DropListRefer.MirrorMoveIsMove` | directive/drop-list-refer.ts:159-169 | the overlay's `insertBefore` relocation is the same one-step move as `moveItemInArray`, in both directions |
| `DropListRefer.SortItem` | directive/drop-list-refer.ts:120-169 | a sort step keeps the container's identity, rectangle, siblings, dragging flag and number of positions, and permutes the items |
| `DropListRefer.SortOutsideProximityOnlyRecords` | directive/drop-list-refer.ts:121-124 | away from the container the step only records the point |
| `DropListRefer.SortNoMatchOnlyRecords` | directive/drop-list-refer.ts:129-132 | when no slot matches and positions are cached, the step only records the point |
| `DropListRefer.SortHysteresisSkips` | directive/drop-list-refer.ts:135-146 | after a reorder, a pointer that stays with the remembered point in the resolved slot changes nothing |
| `DropListRefer.SortSameIndexNoMove` | directive/drop-list-refer.ts:147-152 | resolving the item's own slot reorders nothing and throws nothing |
| `DropListRefer.SortKeepsDragOrder` | directive/drop-list-refer.ts:153-169 | on a coherent container the step never throws, keeps positions, items and overlay in the same order, and either leaves the order alone or applies one move to all three |
| `DropListRefer.SortMovesToResolvedSlot` | directive/drop-list-refer.ts:147-169 | near the container, with another slot resolved and no hysteresis, the item moves to that slot in the items, positions and overlay, and the slot and point are remembered |
| `DropListRefer.RememberedPointBlocksMove` | directive/drop-list-refer.ts:135-147 | after a reorder, repeating the remembered point moves nothing |
| `DropListRefer.SortTwiceIsStable` | directive/drop-list-refer.ts:120-169 | sorting twice at the same point orders the items exactly as sorting once |
| `DropListRefer.SingleItemNeverReorders` | directive/drop-list-refer.ts:120-169 | a container holding only the dragged item keeps it as its only item |
| `DropListRefer.MeasureItem` | directive/drop-list-refer.ts:86-111 | each cached position is for its item, starts with offset 0, and holds the placeholder's rectangle when the registry lists the item as dragging and the item's own rectangle otherwise |
| `DropListRefer.StartReceiving` | directive/drop-list-refer.ts:113-119 | a new sibling is added and the rectangle re-measured; a known sibling changes nothing |
| `DropListRefer.StartReceivingOnce` | directive/drop-list-refer.ts:113-119 | starting to receive from the same sibling twice equals doing it once |
| `DropListRefer.ReceiveAll` | directive/drop-list-refer.ts:76 | every listed sibling records the starting container; other containers are untouched and only receiving state changes |
| `DropListRefer.StartLocal` | directive/drop-list-refer.ts:70-85 | start sets dragging, resets the remembered slot and point, snapshots the items, measures every position in order, and establishes the drag-order invariant |
| `DropListRefer.Start` | directive/drop-list-refer.ts:70-80 | the started container is dragging in drag order with its items kept; siblings record it; every other container is unchanged |
| `DropListRefer.GetItemIndex` | directive/drop-list-refer.ts:229-236 | the index is the item's first place in the items when not dragging and in the cached positions while dragging, or -1 exactly when it is absent |
| `DropListRefer.GetItemIndexFollowsItems` | directive/drop-list-refer.ts:229-236 | in drag order both ways of reading the index agree |
| `DropListRefer.IndexIsPosition` | directive/drop-list-refer.ts:229-236 | with distinct items, every item's index is its place in the items |
| `DropListRefer.Reset` | directive/drop-list-refer.ts:246-252 | dragging, positions, snapshot and previous swap are cleared; the items and the remembered slot and point are kept |
| `DropListRefer.Drop` | directive/drop-list-refer.ts:237-245 | the container is reset and the note carries exactly the given item, indices and this container |
| `DropListRefer.IndexIsPositionAfterDrop` | directive/drop-list-refer.ts:237-252 | after a drop every item's index is its place in the items again |
| `DragRefer.Construct` | directive/drag-refer.ts:69-77 | a new controller has not started, holds neither subscription, listens for presses, and registers itself as a drag item |
| `DragRefer.Emit` | directive/drag-refer.ts:465-471 | a notification is appended unless the channels were completed by dispose |
| `DragRefer.InitializeDragSequence` | directive/drag-refer.ts:106-130 | the flags are reset, the initial container is the current one, the item subscribes to both the move and the up stream, the pickup point is page minus scroll, and the registry lists the item as dragging |
| `DragRefer.PointerDown` | directive/drag-refer.ts:100-105 | a press heard by the root listener always logs `beforeStarted`; it initialises the gesture only when not disabled; once the listener is detached a press changes nothing |
| `DragRefer.StartDragSequence` | directive/drag-refer.ts:235-259 | a container-bound item starts its container, which logs its `beforeStarted`, and captures its index there; a free item changes nothing |
| `DragRefer.HandOffTargetAdmits` | directive/drop-list-refer.ts:45-62 | every hand-off target has the point over its rectangle; a target other than the initial container is a sibling of it that can receive the item there; when every sibling rejects the item, or no element is under the point, only the initial container can be the target |
| `DragRefer.HandOffTarget` | directive/drag-refer.ts:336-348 | the target is the first receiving sibling of the initial container; failing that, the initial container when the item left it and the point is over it |
| `DragRefer.PointerMove` | directive/drag-refer.ts:160-191 | a move is ignored without the move subscription; it never changes the up subscription, the passive translation, the initial container or the registry |
| `DragRefer.MoveFaultDropsMoveSubscription` | directive/drag-refer.ts:121-122 | a move drops the item's move subscription exactly when it ends by reporting a `TypeError`, and never touches the up subscription |
| `DragRefer.MoveBeforeStartKeepsSubscriptions` | directive/drag-refer.ts:160-167 | before the start a move never throws and keeps both subscriptions |
| `DragRefer.MoveAfterStartDropsOnFault` | directive/drag-refer.ts:168-191 | after the start a move drops the move subscription exactly when the sort, the missing initial container or the missing pickup point throws |
| `DragRefer.MoveFaultStopsMoves` | directive/drag-refer.ts:121-122 | after a move that threw, later moves change nothing, while a release still unsubscribes |
| `DragRefer.OverlayGoneStopsMoves` | directive/drop-list-refer.ts:120-128 | with the container's overlay removed, the next move near it throws, keeps the containers as they were, and stops the item hearing moves |
| `DragRefer.DragDistance` | directive/drag-refer.ts:225-233 | the distance is zero without a pickup point; otherwise pickup plus distance gives the current point |
| `DragRefer.SettleDecision` | directive/drag-refer.ts:379-420 | the drop settles at once exactly when the item never moved or the duration is 0; otherwise it waits with a timeout of 1.5 times the duration |
| `DragRefer.PointerUp` | directive/drag-refer.ts:194-224 | a release always drops both subscriptions and stops the drag; before the start it logs nothing; a container-bound item logs `released` and waits to settle |
| `DragRefer.RemoveOverlay` | directive/drag-refer.ts:294-298 | the overlay is removed; the dragging state, positions and items are kept |
| `DragRefer.SettleDrop` | directive/drag-refer.ts:421-449 | the settle step completes the pending drop; without one it changes nothing |
| `DragRefer.Dispose` | directive/drag-refer.ts:450-474 | the press listener is always detached; a container-bound item is then unregistered, unsubscribed, closed and detached from its container; a free item throws right after the listener is detached and is otherwise left as it was |
| `DragRefer.MoveBeforeStartOnlyChecksDelay` | directive/drag-refer.ts:160-167 | before the start, a move sets started exactly when the delay has elapsed and does no positional work |
| `DragRefer.FreeMoveTranslates` | directive/drag-refer.ts:169-181 | a free item's active translation is pointer minus pickup plus passive |
| `DragRefer.FreeReleaseEnds` | directive/drag-refer.ts:203-216 | a free release turns the active translation into the passive one and logs `released` then `ended` with the release-minus-pickup distance |
| `DragRefer.ReleaseBeforeStartIsSilent` | directive/drag-refer.ts:194-202 | a release before the start unsubscribes, stops the drag and logs nothing |
| `DragRefer.FreeGestureShiftsPassive` | directive/drag-refer.ts:118-216 | a whole free gesture moves the resting translation by exactly the pointer's travel and logs `beforeStarted`, `released`, `ended` |
| `DragRefer.HandOffThenSort` | directive/drag-refer.ts:336-363 | `exited` then `entered` (index 1) are logged only when the target differs from the current container, and the item is always sorted in the container it ends up in |
| `DragRefer.NoSiblingsNoHandOff` | directive/drag-refer.ts:338-349 | with no siblings an item still in its initial container never changes container |
| `DragRefer.DraggingFromStartToRelease` | directive/drag-refer.ts:376-378 | the move that starts the drag makes the item dragging, and the release ends it |
| `DragRefer.SettleDropBookkeeping` | directive/drag-refer.ts:421-449 | `dropped` carries the index in the current container and the index read from the initial one; the container drops with the index captured at start; the item returns to its initial container and stops dragging |
| `DragRefer.ItemDroppedPreviousIsCurrent` | directive/drag-refer.ts:439-445 | dropped in its initial container, the item-level `dropped` reports its current index as the previous index too |
| `DragRefer.NothingAfterDispose` | directive/drag-refer.ts:450-474 | after dispose a press changes nothing for every item; a container-bound item also ignores moves and releases, as does any item without the matching subscription, while a free item keeps its subscriptions and stays open because dispose threw first |
| `DragRefer.DisabledNeverStarts` | directive/drag-refer.ts:100-105 | a disabled item subscribes to nothing, so later moves and releases are ignored |
| `DragRefer.HandlersKeepListenersTracking` | directive/drag-refer.ts:100-474 | every handler of the item keeps the registry's listener invariant |
| `Scenarios.DragFirstToLast` | directive/drag-refer.ts:100-449 | dragging the first of three stacked items onto the third row and releasing yields the order [2, 3, 1] and the exact notification sequence |

## Left out

- Rendering and styling are left out because they decide no order, index or
  notification. This covers the preview and placeholder elements, cloning,
  visibility and `transform` strings, and the preview's position on every
  move.
- `_pointerPositionAtLastDirectionChange` is left out because it is written but
  never read.
- `pickupInElement` is computed but read by no modelled decision. The source
  uses it only for the preview transform.
- Geometry uses integer coordinates and is an input. The overlay children's
  rectangles are taken as already floor-rounded. `getBoundingClientRect`,
  `elementFromPoint`, viewport scroll and `Date.now` are parameters.
- The transition duration is an opaque `nat`. CSS duration parsing is string
  and floating-point work.
- Promises, `setTimeout`, `transitionend`, NgZone and rxjs are replaced:
  - the settle wait becomes the explicit `SettleDrop` step;
  - each of the two subscriptions becomes a flag;
  - Subjects become the event log.
- Real `addEventListener` calls are reduced to the map of bound event names.
  The duplicate document handlers a re-start can leak are not represented.
- The Angular directives and the factory service are DI wiring:
  - The directive pushes items into and splices them out of a container's
    `_draggables`. Here that appears only as the container's initial item
    list.
  - `DropListRefer`'s constructor registers the container with the registry;
    this is not chained into `DropListRefer.Create`, and
    `DragDropRegistry.RegisterDropContainer` models it.
- The overlay (the clone of the container) is taken to have one child per item,
  in item order, when a container starts.
- The container's `_clientRect` is always treated as measured.
- The enter predicate is modelled as the set of items it rejects.
- `DragRefer.InitializeDragSequence` sets two subscription flags, so it does not
  model the subscription leak of a press during a live gesture. The source then
  subscribes a second pair of handlers without unsubscribing the first.
  `_removeSubscriptions` releases only the newest pair, so the old handlers keep
  reacting to later gestures. Such a press happens when a second mouse button
  goes down while the first is held. Modelling it would need a count of live
  subscriptions and would multiply every handler's cases, so the model keeps
  one pair of subscriptions per gesture.
- A touch start is not modelled for items, because the item binds only
  `mousedown`.
- `DragRefer.PointerMove`'s own contract is only a frame condition. What a move
  does is stated by `MoveBeforeStartOnlyChecksDelay`, `FreeMoveTranslates` and
  `HandOffThenSort`.
- `DropListRefer.SortItem`'s own contract is only a frame condition. The
  individual rungs of the ladder are stated by the `Sort…` lemmas.
- `DragRefer.SettleDrop`'s own contract is only a frame condition. The drop
  bookkeeping is stated by `SettleDropBookkeeping`.

=== FILE: basics.dfy ===
/** Shared vocabulary of the drag-and-drop engine: optional values, the identities
    of items and containers, and the TypeErrors the engine raises when it
    dereferences something that is undefined. */
module Basics {

  datatype Option<+T> = None | Some(value: T)

  /** Identity of one draggable item (one drag controller instance). */
  type ItemId = nat

  /** Identity of one drop container instance. */
  type ContainerId = nat

  /** A TypeError thrown by the engine; the handler that raised it stops at that
      point and whatever it had already changed stays changed. */
  datatype Fault =
    | OverlayUndefined      // the container has no cloned overlay element
    | ChildUndefined        // an overlay child is read at index -1
    | SiblingUndefined      // the cached position at the target index is missing
    | MovedChildUndefined   // the overlay child to move is missing
    | ContainerUndefined    // the item has no (initial) container to dereference
    | PickupUndefined       // the item has no pickup position
}

=== FILE: drag.dfy ===
/** The per-item gesture state machine: pointer-down, the start-delay gate, free
    translation, the container hand-off on every move, pointer-up, the settle
    decision, the drop bookkeeping and disposal. Notifications are appended to an
    event log; time, scroll position and geometry are inputs. */
module DragRefer {
  import opened Basics
  import opened Geometry
  import DragDropRegistry
  import opened DropListRefer

  /** One notification, in the order the engine emits them. */
  datatype Event =
    | BeforeStarted(item: ItemId)
    | Released(item: ItemId)
    | Ended(item: ItemId, distance: Point)
    | Exited(item: ItemId, container: ContainerId)
    | Entered(item: ItemId, container: ContainerId, currentIndex: int)
    | Dropped(item: ItemId, previousIndex: int, currentIndex: int)
    | ListBeforeStarted(container: ContainerId)
    | ListDropped(note: DroppedNote)
    | Uncaught(item: ItemId, fault: Fault)

  /** How the drop waits for the preview to settle onto the placeholder. */
  datatype Settle = Immediate | Timeout(ms: real)

  datatype Drag = Drag(
    id: ItemId,
    disabled: bool,
    startDelay: int,                     // `dragStartDelay`, in milliseconds
    container: Option<ContainerId>,      // the container the item is currently in
    initialContainer: Option<ContainerId>,
    hasStartedDragging: bool,
    hasMoved: bool,
    moveSubscribed: bool,                // listening to the registry's move stream
    upSubscribed: bool,                  // listening to the registry's up stream
    scroll: Point,                       // viewport scroll position at pickup
    pickupInElement: Point,
    pickupOnPage: Option<Point>,
    startTime: int,
    passive: Point,                      // translation carried over from earlier free drags
    active: Point,                       // translation of the current free drag
    previousIndex: int,                  // index in the container captured at start
    settling: Option<Settle>,            // a drop waiting for its settle step
    closed: bool,                        // notification channels completed by `dispose`
    listening: bool)                     // the root element's `mousedown` listener is attached

  /** Everything outside the item that its handlers read and change. */
  datatype World = World(
    registry: DragDropRegistry.Registry,
    lists: map<ContainerId, DropList>,
    log: seq<Event>)

  datatype Step = Step(drag: Drag, world: World)

  /** A pointer event: its type and its page coordinates. */
  datatype PointerEvent = PointerEvent(eventType: string, page: Point)

  /** A fresh controller for item `id`, in `container` if it has one. */
  function Create(id: ItemId, container: Option<ContainerId>): (d: Drag)
    ensures !d.hasStartedDragging && !d.moveSubscribed && !d.upSubscribed && !d.closed && d.listening && d.container == container
    ensures d.pickupOnPage.None? && d.previousIndex == -1
  {
    Drag(id, false, 0, container, None, false, false, false, false, Point(0, 0), Point(0, 0), None, 0,
         Point(0, 0), Point(0, 0), -1, None, false, true)
  }

  /** The constructor: a fresh controller that registers itself as a drag item. */
  function Construct(id: ItemId, container: Option<ContainerId>, w: World): (s: Step)
    ensures s.drag == Create(id, container)
    ensures s.world.registry.items == w.registry.items + {id}
    ensures s.world.registry.active == w.registry.active && s.world.lists == w.lists && s.world.log == w.log
  {
    Step(Create(id, container), w.(registry := DragDropRegistry.RegisterDragItem(w.registry, id)))
  }

  /** The item's container references name containers of the world. */
  predicate Linked(d: Drag, w: World) {
    && (d.container.Some? ==> d.container.value in w.lists)
    && (d.initialContainer.Some? ==> d.initialContainer.value in w.lists)
  }

  /** Emitting on one of the item's own channels: nothing is delivered once
      `dispose` has completed them. */
  function Emit(d: Drag, log: seq<Event>, e: Event): (r: seq<Event>)
    ensures d.closed ==> r == log
    ensures !d.closed ==> r == log + [e]
  {
    if d.closed then log else log + [e]
  }

  /** The gesture has begun and the registry lists the item as active. */
  predicate IsDragging(d: Drag, w: World) {
    d.hasStartedDragging && DragDropRegistry.IsDragging(w.registry, d.id)
  }

  // ---------------------------------------------------------------- pointer-down

  /** `_initializeDragSequence`: reset the flags, remember the initial container,
      subscribe, snapshot the scroll position and the pickup point, note the time,
      and tell the registry the item is being dragged. */
  function InitializeDragSequence(d: Drag, w: World, ev: PointerEvent, now: int, scroll: Point, elementRect: Rect): (s: Step)
    ensures !s.drag.hasStartedDragging && !s.drag.hasMoved && s.drag.moveSubscribed && s.drag.upSubscribed
    ensures s.drag.initialContainer == d.container && s.drag.container == d.container
    ensures DragDropRegistry.IsDragging(s.world.registry, d.id)
    ensures s.drag.pickupOnPage == Some(Minus(ev.page, scroll)) && s.drag.startTime == now
    ensures s.world.lists == w.lists && s.world.log == w.log
    ensures s.drag.id == d.id && s.drag.closed == d.closed && s.drag.listening == d.listening && s.drag.passive == d.passive
  {
    var d1 := d.(
      hasStartedDragging := false, hasMoved := false,
      initialContainer := d.container,
      moveSubscribed := true, upSubscribed := true,
      scroll := scroll,
      pickupInElement := Point(ev.page.x - elementRect.left - scroll.x, ev.page.y - elementRect.top - scroll.y),
      pickupOnPage := Some(Minus(ev.page, scroll)),
      startTime := now);
    Step(d1, w.(registry := DragDropRegistry.StartDragging(w.registry, d.id, ev.eventType)))
  }

  /** `_pointerDown`, run by the root element's `mousedown` listener: `beforeStarted`
      always fires; the gesture is initialised only when the item is not disabled.
      Once `dispose` has removed the listener, a press on the item does nothing. */
  function PointerDown(d: Drag, w: World, ev: PointerEvent, now: int, scroll: Point, elementRect: Rect): (s: Step)
    ensures !d.listening ==> s == Step(d, w)
    ensures d.listening ==> s.world.log == Emit(d, w.log, BeforeStarted(d.id))
    ensures d.disabled ==> s.drag == d && s.world.registry == w.registry
    ensures d.listening && !d.disabled ==> s.drag.moveSubscribed && s.drag.upSubscribed && !s.drag.hasStartedDragging && !s.drag.hasMoved
    ensures d.listening && !d.disabled ==>
      s.drag.initialContainer == d.container && DragDropRegistry.IsDragging(s.world.registry, d.id)
    ensures s.world.lists == w.lists && s.drag.listening == d.listening
  {
    if !d.listening then Step(d, w)
    else
      var w1 := w.(log := Emit(d, w.log, BeforeStarted(d.id)));
      if d.disabled then Step(d, w1)
      else InitializeDragSequence(d, w1, ev, now, scroll, elementRect)
  }

  // ---------------------------------------------------------------- pointer-move

  /** `_startDragSequence`: for a container-bound item, start the container and
      capture the item's index in it. */
  function StartDragSequence(d: Drag, w: World, scene: Scene): (s: Step)
    requires Linked(d, w)
    ensures s.world.lists.Keys == w.lists.Keys && s.world.registry == w.registry
    ensures s.drag == d.(previousIndex := s.drag.previousIndex)
    ensures d.container.None? ==> s == Step(d, w)
    ensures d.container.Some? ==>
      var c := d.container.value;
      && s.world.lists[c].isDragging && InDragOrder(s.world.lists[c])
      && s.world.lists[c].draggables == w.lists[c].draggables
      && s.drag.previousIndex == IndexOf(w.lists[c].draggables, d.id)
      && s.world.log == w.log + [ListBeforeStarted(c)]
  {
    match d.container
    case None => Step(d, w)
    case Some(c) =>
      var lists := DropListRefer.Start(w.lists, c, w.registry.active, scene);
      GetItemIndexFollowsItems(lists[c], d.id);
      Step(d.(previousIndex := GetItemIndex(lists[c], d.id)),
           w.(lists := lists, log := w.log + [ListBeforeStarted(c)]))
  }

  /** The container the item should be in at `pos`: the first sibling of the
      initial container that can receive it; failing that, the initial container
      itself when the item has left it and the point is over it. */
  function HandOffTarget(d: Drag, w: World, pos: Point, top: Topmost): (r: Option<ContainerId>)
    requires Linked(d, w) && d.initialContainer.Some?
    ensures var init := d.initialContainer.value;
      var found := SiblingFromPosition(w.lists, w.lists[init], d.id, pos, top);
      && (found.Some? ==> r == found)
      && (found.None? ==> (r == Some(init) <==> d.container != Some(init) && IsOverContainer(w.lists[init], pos)))
      && (found.None? ==> r.None? || r == Some(init))
    ensures r.Some? ==> r.value in w.lists
  {
    var init := d.initialContainer.value;
    var found := SiblingFromPosition(w.lists, w.lists[init], d.id, pos, top);
    if found.None? && d.container != Some(init) && IsOverContainer(w.lists[init], pos) then Some(init)
    else found
  }

  /** The overlay children's rectangles of container `c`. */
  function ChildRects(list: DropList, scene: Scene): (r: seq<Rect>)
    ensures list.overlay.Some? ==> |r| == |list.overlay.value|
  {
    if list.overlay.None? then []
    else seq(|list.overlay.value|, k requires 0 <= k < |list.overlay.value| => scene.childRect(list.id, k))
  }

  /** The step from `w` to `s` ended by reporting a TypeError. */
  predicate Threw(w: World, s: Step) {
    |s.world.log| > |w.log| && s.world.log[|s.world.log| - 1].Uncaught?
  }

  /** A TypeError escaping the move handler: it is reported, and rxjs, which
      unsubscribes a subscriber whose `next` handler throws, drops the item's move
      subscription. The up subscription is a separate subscriber and stays. */
  function MoveThrew(d: Drag, w: World, f: Fault): (s: Step)
    ensures s.drag == d.(moveSubscribed := false) && s.drag.upSubscribed == d.upSubscribed
    ensures s.world.log == w.log + [Uncaught(d.id, f)] && Threw(w, s)
    ensures s.world.lists == w.lists && s.world.registry == w.registry
  {
    Step(d.(moveSubscribed := false), w.(log := w.log + [Uncaught(d.id, f)]))
  }

  /** Store the outcome of a sort step in container `c`; a TypeError thrown by
      the sort escapes the move handler. */
  function ApplySorted(d: Drag, w: World, c: ContainerId, out: Sorted): (s: Step)
    ensures s.world.lists == w.lists[c := out.list] && s.world.registry == w.registry
    ensures s.drag == d.(moveSubscribed := s.drag.moveSubscribed)
    ensures out.fault.Some? ==> !s.drag.moveSubscribed && s.world.log == w.log + [Uncaught(d.id, out.fault.value)]
    ensures out.fault.None? ==> s.drag == d && s.world.log == w.log
    ensures |w.log| <= |s.world.log| <= |w.log| + 1 && s.world.log[..|w.log|] == w.log
    ensures d.moveSubscribed ==> (s.drag.moveSubscribed <==> !Threw(w, s))
  {
    var w1 := w.(lists := w.lists[c := out.list]);
    if out.fault.Some? then MoveThrew(d, w1, out.fault.value) else Step(d, w1)
  }

  /** Sort the item in container `c`, with the overlay children's rectangles
      taken from the scene. */
  function SortIn(d: Drag, w: World, c: ContainerId, pos: Point, scene: Scene): (s: Step)
    requires c in w.lists
  {
    ApplySorted(d, w, c, SortItem(w.lists[c], d.id, pos, ChildRects(w.lists[c], scene)))
  }

  /** The hand-off half of `_updateActiveDropContainer`: when the target differs
      from the current container, `exited` fires on the old one, `entered` on the
      new one with index 1 (as the source hard-codes), and the item moves there. */
  function HandOff(d: Drag, w: World, pos: Point, top: Topmost): (s: Step)
    requires Linked(d, w) && d.container.Some? && d.initialContainer.Some?
    ensures Linked(s.drag, s.world) && s.drag.container.Some?
    ensures s.drag == d.(container := s.drag.container)
    ensures s.world.lists == w.lists && s.world.registry == w.registry
    ensures !Threw(w, s)
  {
    var target := HandOffTarget(d, w, pos, top);
    if target.Some? && target != d.container then
      var log := Emit(d, Emit(d, w.log, Exited(d.id, d.container.value)), Entered(d.id, target.value, 1));
      Step(d.(container := target), w.(log := log))
    else
      Step(d, w)
  }

  /** `_updateActiveDropContainer`: hand the item off, then always sort it in the
      container it is now in. */
  function UpdateActiveDropContainer(d: Drag, w: World, pos: Point, scene: Scene): (s: Step)
    requires Linked(d, w) && d.container.Some?
    ensures Linked(s.drag, s.world) && s.world.lists.Keys == w.lists.Keys
    ensures s.drag == d.(container := s.drag.container, moveSubscribed := s.drag.moveSubscribed)
    ensures s.world.registry == w.registry
    ensures d.moveSubscribed ==> (s.drag.moveSubscribed <==> !Threw(w, s))
  {
    if d.initialContainer.None? then MoveThrew(d, w, ContainerUndefined)
    else
      var h := HandOff(d, w, pos, scene.topmost);
      SortIn(h.drag, h.world, h.drag.container.value, pos, scene)
  }

  /** `_pointerMove`, run while the move subscription is live. Before the drag has started, a move only checks the start
      delay (and starts the sequence once it has elapsed); afterwards it tracks
      the pointer: hand-off and sort for a container-bound item, translation for
      a free one. */
  function PointerMove(d: Drag, w: World, ev: PointerEvent, now: int, scene: Scene): (s: Step)
    requires Linked(d, w)
    ensures Linked(s.drag, s.world) && s.world.lists.Keys == w.lists.Keys
    ensures s.drag.id == d.id && s.drag.closed == d.closed && s.drag.upSubscribed == d.upSubscribed
    ensures s.drag.passive == d.passive && s.drag.initialContainer == d.initialContainer
    ensures s.world.registry == w.registry
    ensures !d.moveSubscribed ==> s == Step(d, w)
  {
    if !d.moveSubscribed then Step(d, w)
    else if !d.hasStartedDragging then
      if now >= d.startTime + d.startDelay then StartDragSequence(d.(hasStartedDragging := true), w, scene)
      else Step(d, w)
    else
      var pos := Minus(ev.page, d.scroll);
      var d1 := d.(hasMoved := true);
      if d.container.Some? then UpdateActiveDropContainer(d1, w, pos, scene)
      else if d.pickupOnPage.None? then MoveThrew(d1, w, PickupUndefined)
      else Step(d1.(active := Plus(Minus(pos, d.pickupOnPage.value), d.passive)), w)
  }

  // ---------------------------------------------------------------- pointer-up

  /** `_getDragDistance`: from the pickup point to `current`, or zero without a
      pickup point. */
  function DragDistance(pickup: Option<Point>, current: Point): (r: Point)
    ensures pickup.None? ==> r == Point(0, 0)
    ensures pickup.Some? ==> Plus(pickup.value, r) == current
  {
    match pickup
    case None => Point(0, 0)
    case Some(p) => Minus(current, p)
  }

  /** The `_animatePreviewToPlaceholder` decision: settle at once when the item
      never moved or the transition lasts 0 ms, else wait for the transition with a
      timeout of one and a half times its duration. */
  function SettleDecision(hasMoved: bool, durationMs: nat): (r: Settle)
    ensures r.Immediate? <==> !hasMoved || durationMs == 0
    ensures r.Timeout? ==> r.ms == 3.0 * (durationMs as real) / 2.0 && r.ms > durationMs as real
  {
    if !hasMoved then Immediate
    else if durationMs == 0 then Immediate
    else Timeout(durationMs as real * 1.5)
  }

  /** `_pointerUp`: unsubscribe and stop dragging in the registry; if the drag
      never started nothing else happens. Otherwise `released` fires; a free item
      turns its active translation into its passive one and fires `ended` with the
      drag distance; a container-bound item waits to settle. */
  function PointerUp(d: Drag, w: World, ev: PointerEvent, durationMs: nat): (s: Step)
    ensures s.world.lists == w.lists && s.drag.id == d.id && s.drag.closed == d.closed
    ensures s.drag.container == d.container && s.drag.initialContainer == d.initialContainer
    ensures d.upSubscribed ==> !s.drag.moveSubscribed && !s.drag.upSubscribed && !DragDropRegistry.IsDragging(s.world.registry, d.id)
    ensures !d.upSubscribed ==> s == Step(d, w)
    ensures d.upSubscribed && !d.hasStartedDragging ==> s.world.log == w.log && s.drag.settling == d.settling
    ensures d.upSubscribed && d.hasStartedDragging && d.container.Some? ==>
      s.world.log == Emit(d, w.log, Released(d.id)) && s.drag.settling == Some(SettleDecision(d.hasMoved, durationMs))
    ensures DragDropRegistry.ListenersTrackActive(w.registry) ==> DragDropRegistry.ListenersTrackActive(s.world.registry)
  {
    if !d.upSubscribed then Step(d, w)
    else
      var d1 := d.(moveSubscribed := false, upSubscribed := false);
      var registry := DragDropRegistry.StopDragging(w.registry, d.id);
      if !d.hasStartedDragging then Step(d1, w.(registry := registry))
      else
        var log := Emit(d, w.log, Released(d.id));
        if d.container.None? then
          var distance := DragDistance(d.pickupOnPage, Minus(ev.page, d.scroll));
          Step(d1.(passive := d.active),
               w.(registry := DragDropRegistry.StopDragging(registry, d.id), log := Emit(d, log, Ended(d.id, distance))))
        else
          Step(d1.(settling := Some(SettleDecision(d.hasMoved, durationMs))), w.(registry := registry, log := log))
  }

  // ---------------------------------------------------------------- settle / drop

  /** `_destroyPreview` on the container side: remove the overlay and show the
      live container again, when there is an overlay. */
  function RemoveOverlay(list: DropList): (r: DropList)
    ensures r.overlay.None? && r.isDragging == list.isDragging && r.positions == list.positions
    ensures r.draggables == list.draggables && r.id == list.id
  {
    if list.overlay.Some? then list.(overlay := None, hidden := false) else list
  }

  /** The settle step, run when the preview has settled: `_cleanupDragArtifacts`
      followed by `stopDragging`. Remove the overlay, fire `dropped` with the
      item's index in the current container and its index read from the initial
      container, have the current container drop the item with the index
      captured at start, and move the item back to its initial container. */
  function SettleDrop(d: Drag, w: World): (s: Step)
    requires Linked(d, w)
    ensures Linked(s.drag, s.world) && s.world.lists.Keys == w.lists.Keys
    ensures s.drag.settling.None? && s.drag.id == d.id && s.drag.closed == d.closed
    ensures d.settling.None? ==> s == Step(d, w)
  {
    if d.settling.None? then Step(d, w)
    else
      var d1 := d.(settling := None);
      match d.container
      case None => Step(d1, w.(log := w.log + [Uncaught(d.id, ContainerUndefined)]))
      case Some(c) =>
        var lists := w.lists[c := RemoveOverlay(w.lists[c])];
        match d.initialContainer
        case None => Step(d1, w.(lists := lists, log := w.log + [Uncaught(d.id, ContainerUndefined)]))
        case Some(init) =>
          var currentIndex := GetItemIndex(lists[c], d.id);
          var previousIndex := GetItemIndex(lists[init], d.id);
          var log := Emit(d, w.log, Dropped(d.id, previousIndex, currentIndex));
          var dropped := Drop(lists[c], d.id, currentIndex, d.previousIndex);
          Step(d1.(container := d.initialContainer),
               World(DragDropRegistry.StopDragging(w.registry, d.id), lists[c := dropped.0], log + [ListDropped(dropped.1)]))
  }

  // ---------------------------------------------------------------- dispose

  /** `dispose`: detach the root element's `mousedown` listener, remove the overlay
      of the current container, unregister the item (which also stops its drag),
      unsubscribe, complete every notification channel and forget the container.
      The source dereferences the container unguarded, so disposing a free item
      throws after detaching the listener and before unregistering it: the item
      stays registered, subscribed and open. */
  function Dispose(d: Drag, w: World): (s: Step)
    requires Linked(d, w)
    ensures Linked(s.drag, s.world) && s.world.lists.Keys == w.lists.Keys
    ensures !s.drag.listening
    ensures d.container.Some? ==> s.drag.closed && !s.drag.moveSubscribed && !s.drag.upSubscribed && s.drag.container.None?
    ensures d.container.Some? ==> d.id !in s.world.registry.items && !DragDropRegistry.IsDragging(s.world.registry, d.id)
    ensures d.container.Some? ==> s.world.log == w.log
    ensures d.container.None? ==> s.drag == d.(listening := false)
    ensures d.container.None? ==> s.world == w.(log := w.log + [Uncaught(d.id, ContainerUndefined)])
  {
    match d.container
    case None => Step(d.(listening := false), w.(log := w.log + [Uncaught(d.id, ContainerUndefined)]))
    case Some(c) =>
      Step(d.(listening := false, moveSubscribed := false, upSubscribed := false, closed := true, container := None),
           w.(lists := w.lists[c := RemoveOverlay(w.lists[c])],
              registry := DragDropRegistry.RemoveDragItem(w.registry, d.id)))
  }

  // ---------------------------------------------------------------- properties

  /** Before the drag has started, a move flips `hasStartedDragging` exactly when
      the start delay has elapsed, and does no positional work on that event. */
  lemma MoveBeforeStartOnlyChecksDelay(d: Drag, w: World, ev: PointerEvent, now: int, scene: Scene)
    requires Linked(d, w) && d.moveSubscribed && !d.hasStartedDragging
    ensures var s := PointerMove(d, w, ev, now, scene);
      && s.drag.hasStartedDragging == (now >= d.startTime + d.startDelay)
      && s.drag.active == d.active && s.drag.hasMoved == d.hasMoved
      && s.drag.container == d.container
      && (d.container.None? ==> s.world == w)
  {
  }

  /** A move of a started free item sets the active translation to the pointer's
      offset from the pickup point plus the passive translation. */
  lemma FreeMoveTranslates(d: Drag, w: World, ev: PointerEvent, now: int, scene: Scene)
    requires Linked(d, w) && d.moveSubscribed && d.hasStartedDragging
    requires d.container.None? && d.pickupOnPage.Some?
    ensures var s := PointerMove(d, w, ev, now, scene);
      && s.drag.active == Plus(Minus(Minus(ev.page, d.scroll), d.pickupOnPage.value), d.passive)
      && s.drag.hasMoved && s.world == w
  {
  }

  /** Releasing a started free item makes its active translation the passive one
      and fires `released` then `ended` with the distance from the pickup point to
      the release point. */
  lemma FreeReleaseEnds(d: Drag, w: World, ev: PointerEvent, durationMs: nat)
    requires d.upSubscribed && d.hasStartedDragging && d.container.None? && !d.closed
    ensures var s := PointerUp(d, w, ev, durationMs);
      && s.drag.passive == d.active
      && s.world.log == w.log + [Released(d.id), Ended(d.id, DragDistance(d.pickupOnPage, Minus(ev.page, d.scroll)))]
      && s.drag.settling == d.settling
  {
  }

  /** A pointer-up before the drag started unsubscribes and stops the drag in the
      registry, and fires nothing: no `released`, `ended` or `dropped`. */
  lemma ReleaseBeforeStartIsSilent(d: Drag, w: World, ev: PointerEvent, durationMs: nat)
    requires d.upSubscribed && !d.hasStartedDragging
    ensures var s := PointerUp(d, w, ev, durationMs);
      && s.world.log == w.log && !s.drag.upSubscribed
      && !IsDragging(s.drag, s.world) && s.drag.settling == d.settling
  {
  }

  /** A free gesture moves the item's resting translation by exactly the pointer's
      travel from press to release, so the next gesture starts from there. */
  lemma FreeGestureShiftsPassive(d: Drag, w: World, down: PointerEvent, t0: int, scroll: Point, elementRect: Rect,
                                 first: PointerEvent, t1: int, last: PointerEvent, t2: int, scene: Scene, durationMs: nat)
    requires Linked(d, w) && d.container.None? && !d.disabled && !d.closed && d.listening
    requires t1 >= t0 + d.startDelay
    ensures var s1 := PointerDown(d, w, down, t0, scroll, elementRect);
      var s2 := PointerMove(s1.drag, s1.world, first, t1, scene);
      var s3 := PointerMove(s2.drag, s2.world, last, t2, scene);
      var s4 := PointerUp(s3.drag, s3.world, last, durationMs);
      && s4.drag.passive == Plus(d.passive, Minus(last.page, down.page))
      && s4.world.log == w.log + [BeforeStarted(d.id), Released(d.id), Ended(d.id, Minus(last.page, down.page))]
      && !IsDragging(s4.drag, s4.world)
  {
    var s1 := PointerDown(d, w, down, t0, scroll, elementRect);
    var s2 := PointerMove(s1.drag, s1.world, first, t1, scene);
    assert s2.drag.hasStartedDragging && s2.drag.container.None? && s2.world == s1.world;
    var s3 := PointerMove(s2.drag, s2.world, last, t2, scene);
    FreeMoveTranslates(s2.drag, s2.world, last, t2, scene);
    FreeReleaseEnds(s3.drag, s3.world, last, durationMs);
  }

  /** The hand-off on a move of a container-bound item: when the target differs
      from the current container the item moves there, `exited` (old container)
      then `entered` (new container, index 1) are logged, and the item is sorted in
      the new container; otherwise it stays and is sorted where it is. */
  lemma HandOffThenSort(d: Drag, w: World, pos: Point, scene: Scene)
    requires Linked(d, w) && d.container.Some? && d.initialContainer.Some? && !d.closed
    ensures var target := HandOffTarget(d, w, pos, scene.topmost);
      var s := UpdateActiveDropContainer(d, w, pos, scene);
      var cur := s.drag.container.value;
      && (target.Some? && target != d.container ==>
            && s.drag.container == target
            && s.world.log[..|w.log| + 2] == w.log + [Exited(d.id, d.container.value), Entered(d.id, target.value, 1)])
      && (!(target.Some? && target != d.container) ==>
            s.drag.container == d.container && |s.world.log| <= |w.log| + 1 && s.world.log[..|w.log|] == w.log)
      && s.world.lists[cur] == SortItem(w.lists[cur], d.id, pos, ChildRects(w.lists[cur], scene)).list
  {
    var target := HandOffTarget(d, w, pos, scene.topmost);
    var h := HandOff(d, w, pos, scene.topmost);
    var s := UpdateActiveDropContainer(d, w, pos, scene);
    assert s == SortIn(h.drag, h.world, h.drag.container.value, pos, scene);
    if target.Some? && target != d.container {
      assert h.world.log == w.log + [Exited(d.id, d.container.value), Entered(d.id, target.value, 1)];
    } else {
      assert h == Step(d, w);
    }
  }

  /** Before the drag has started, a move never throws and keeps both
      subscriptions. */
  lemma MoveBeforeStartKeepsSubscriptions(d: Drag, w: World, ev: PointerEvent, now: int, scene: Scene)
    requires Linked(d, w) && d.moveSubscribed && !d.hasStartedDragging
    ensures var s := PointerMove(d, w, ev, now, scene);
      s.drag.moveSubscribed && !Threw(w, s) && s.drag.upSubscribed == d.upSubscribed
  {
    if now >= d.startTime + d.startDelay {
      var t := StartDragSequence(d.(hasStartedDragging := true), w, scene);
      assert t.world.log == w.log || t.world.log[|t.world.log| - 1].ListBeforeStarted?;
    }
  }

  /** After the start, a move drops the move subscription exactly when it throws. */
  lemma MoveAfterStartDropsOnFault(d: Drag, w: World, ev: PointerEvent, now: int, scene: Scene)
    requires Linked(d, w) && d.moveSubscribed && d.hasStartedDragging
    ensures var s := PointerMove(d, w, ev, now, scene);
      (s.drag.moveSubscribed <==> !Threw(w, s)) && s.drag.upSubscribed == d.upSubscribed
  {
    var d1 := d.(hasMoved := true);
    var pos := Minus(ev.page, d.scroll);
    if d.container.Some? {
      assert PointerMove(d, w, ev, now, scene) == UpdateActiveDropContainer(d1, w, pos, scene);
    }
  }

  /** A TypeError escaping the move handler costs the item its move subscription,
      and nothing else does: rxjs unsubscribes a subscriber whose handler throws,
      and the up subscription is a separate subscriber. */
  lemma MoveFaultDropsMoveSubscription(d: Drag, w: World, ev: PointerEvent, now: int, scene: Scene)
    requires Linked(d, w) && d.moveSubscribed
    ensures var s := PointerMove(d, w, ev, now, scene);
      && (s.drag.moveSubscribed <==> !Threw(w, s))
      && s.drag.upSubscribed == d.upSubscribed
  {
    if d.hasStartedDragging {
      MoveAfterStartDropsOnFault(d, w, ev, now, scene);
    } else {
      MoveBeforeStartKeepsSubscriptions(d, w, ev, now, scene);
    }
  }

  /** After a move that threw, every later move is ignored, while a release
      still ends the gesture. */
  lemma MoveFaultStopsMoves(d: Drag, w: World, ev: PointerEvent, now: int, scene: Scene,
                            next: PointerEvent, later: int, durationMs: nat)
    requires Linked(d, w) && d.moveSubscribed
    ensures var s := PointerMove(d, w, ev, now, scene);
      && (Threw(w, s) ==> PointerMove(s.drag, s.world, next, later, scene) == s)
      && (Threw(w, s) && s.drag.upSubscribed ==>
            !PointerUp(s.drag, s.world, next, durationMs).drag.upSubscribed)
  {
    MoveFaultDropsMoveSubscription(d, w, ev, now, scene);
  }

  /** Once the container's overlay is gone (another item's `dispose` removes it),
      the next move of a dragged item near the container throws reading the
      overlay's children; the item stops hearing moves and the containers are
      left as they were. */
  lemma OverlayGoneStopsMoves(d: Drag, w: World, ev: PointerEvent, now: int, scene: Scene)
    requires Linked(d, w) && d.moveSubscribed && d.hasStartedDragging
    requires d.container.Some? && d.initialContainer == d.container
    requires var c := w.lists[d.container.value];
      c.siblings == [] && c.overlay.None? && IsPointerNear(c.rect, Minus(ev.page, d.scroll))
    ensures var s := PointerMove(d, w, ev, now, scene);
      && s.world.log == w.log + [Uncaught(d.id, OverlayUndefined)]
      && !s.drag.moveSubscribed && s.drag.upSubscribed == d.upSubscribed
      && s.world.lists == w.lists && s.drag.container == d.container
  {
    var pos := Minus(ev.page, d.scroll);
    NoSiblingsNoHandOff(d.(hasMoved := true), w, pos, scene);
    assert w.lists[d.container.value := w.lists[d.container.value]] == w.lists;
  }

  /** Without siblings (the source never assigns any), an item that has not left
      its initial container never changes container. */
  lemma NoSiblingsNoHandOff(d: Drag, w: World, pos: Point, scene: Scene)
    requires Linked(d, w) && d.container.Some? && d.container == d.initialContainer
    requires w.lists[d.initialContainer.value].siblings == []
    ensures HandOffTarget(d, w, pos, scene.topmost).None?
    ensures UpdateActiveDropContainer(d, w, pos, scene).drag.container == d.container
  {
  }

  /** The move that starts the drag makes the item dragging; the pointer-up ends it. */
  lemma DraggingFromStartToRelease(d: Drag, w: World, ev: PointerEvent, now: int, scene: Scene, up: PointerEvent, durationMs: nat)
    requires Linked(d, w) && d.moveSubscribed && d.upSubscribed && !d.hasStartedDragging
    requires DragDropRegistry.IsDragging(w.registry, d.id)
    requires now >= d.startTime + d.startDelay
    ensures var s := PointerMove(d, w, ev, now, scene);
      IsDragging(s.drag, s.world) && !IsDragging(PointerUp(s.drag, s.world, up, durationMs).drag, PointerUp(s.drag, s.world, up, durationMs).world)
  {
  }

  /** The drop bookkeeping: `dropped` carries the item's index in the current
      container and the index read from the initial container; the container
      drops the item with the index captured at start; the item goes back to its
      initial container and is no longer dragging. */
  lemma SettleDropBookkeeping(d: Drag, w: World)
    requires Linked(d, w) && d.settling.Some? && d.container.Some? && d.initialContainer.Some? && !d.closed
    requires w.lists[d.container.value].id == d.container.value
    ensures var c := d.container.value;
      var init := d.initialContainer.value;
      var s := SettleDrop(d, w);
      var currentIndex := GetItemIndex(w.lists[c], d.id);
      var previousIndex := GetItemIndex(w.lists[c := RemoveOverlay(w.lists[c])][init], d.id);
      && s.drag.container == d.initialContainer
      && s.world.log == w.log + [Dropped(d.id, previousIndex, currentIndex),
                                 ListDropped(DroppedNote(d.id, currentIndex, d.previousIndex, c))]
      && !s.world.lists[c].isDragging && s.world.lists[c].positions == []
      && s.world.lists[c].draggables == w.lists[c].draggables
      && !IsDragging(s.drag, s.world)
  {
  }

  /** When the item is dropped in its initial container while that container is
      still dragging, the item-level `dropped` reports the item's current index
      as its previous index too: the index is read after sorting, not the one
      captured at start. */
  lemma ItemDroppedPreviousIsCurrent(d: Drag, w: World)
    requires Linked(d, w) && d.settling.Some? && d.container.Some? && d.initialContainer == d.container && !d.closed
    requires w.lists[d.container.value].id == d.container.value
    ensures var c := d.container.value;
      var i := GetItemIndex(w.lists[c], d.id);
      SettleDrop(d, w).world.log[|w.log|] == Dropped(d.id, i, i)
  {
    SettleDropBookkeeping(d, w);
  }

  /** After `dispose` presses are no longer heard, whether or not it threw. A
      container-bound item also stops hearing the move and up streams; a free
      item's dispose throws before unsubscribing, so a gesture in progress keeps
      reaching it. */
  lemma NothingAfterDispose(d: Drag, w: World, ev: PointerEvent, now: int, scroll: Point, elementRect: Rect, scene: Scene, durationMs: nat)
    requires Linked(d, w)
    ensures var s := Dispose(d, w);
      PointerDown(s.drag, s.world, ev, now, scroll, elementRect) == s
    ensures var s := Dispose(d, w);
      && (d.container.Some? || !d.moveSubscribed ==> PointerMove(s.drag, s.world, ev, now, scene) == s)
      && (d.container.Some? || !d.upSubscribed ==> PointerUp(s.drag, s.world, ev, durationMs) == s)
    ensures var s := Dispose(d, w);
      d.container.None? ==>
        s.drag.moveSubscribed == d.moveSubscribed && s.drag.upSubscribed == d.upSubscribed && s.drag.closed == d.closed
  {
  }

  /** The hand-off target is always a container the point is over. A target other
      than the initial container is a sibling of it that can receive the item
      there; so when every sibling's enter predicate rejects the item, or no
      element is under the point, the item can only go back to its initial
      container. */
  lemma HandOffTargetAdmits(d: Drag, w: World, pos: Point, top: Topmost)
    requires Linked(d, w) && d.initialContainer.Some?
    ensures var init := d.initialContainer.value;
      var t := HandOffTarget(d, w, pos, top);
      && (t.Some? ==> IsOverContainer(w.lists[t.value], pos))
      && (t.Some? && t.value != init ==>
            t.value in w.lists[init].siblings && CanReceive(w.lists[t.value], d.id, pos, top))
      && ((forall s :: s in w.lists[init].siblings && s in w.lists ==> d.id in w.lists[s].rejects) ==>
            t.None? || t == Some(init))
      && (top.NoElement? ==> t.None? || t == Some(init))
  {
  }

  /** A disabled item never gets past `beforeStarted`: the press subscribes to
      nothing, so later moves and releases are ignored. */
  lemma DisabledNeverStarts(d: Drag, w: World, down: PointerEvent, now: int, scroll: Point, elementRect: Rect,
                            ev: PointerEvent, later: int, scene: Scene, durationMs: nat)
    requires Linked(d, w) && d.disabled && !d.moveSubscribed && !d.upSubscribed
    ensures var s := PointerDown(d, w, down, now, scroll, elementRect);
      && PointerMove(s.drag, s.world, ev, later, scene) == s
      && PointerUp(s.drag, s.world, ev, durationMs) == s
      && s.drag.hasStartedDragging == d.hasStartedDragging
      && !s.drag.moveSubscribed && !s.drag.upSubscribed
  {
  }

  /** Every handler of the item keeps the registry's invariant that document
      listeners are bound exactly while some item is being dragged. */
  lemma HandlersKeepListenersTracking(d: Drag, w: World, ev: PointerEvent, now: int, scroll: Point,
                                      elementRect: Rect, scene: Scene, durationMs: nat)
    requires Linked(d, w) && DragDropRegistry.ListenersTrackActive(w.registry)
    ensures DragDropRegistry.ListenersTrackActive(PointerDown(d, w, ev, now, scroll, elementRect).world.registry)
    ensures DragDropRegistry.ListenersTrackActive(PointerMove(d, w, ev, now, scene).world.registry)
    ensures DragDropRegistry.ListenersTrackActive(PointerUp(d, w, ev, durationMs).world.registry)
    ensures DragDropRegistry.ListenersTrackActive(SettleDrop(d, w).world.registry)
    ensures DragDropRegistry.ListenersTrackActive(Dispose(d, w).world.registry)
  {
  }
}

=== FILE: droplist.dfy ===
/** One drop container: hit-testing a point against the container and its
    siblings, resolving the slot under the pointer, the sort step with its
    hysteresis, and the start / index / drop bookkeeping. DOM geometry is an
    input (a `Scene`, or the rectangles of the overlay's children). */
module DropListRefer {
  import opened Basics
  import opened Geometry
  import opened Reorder

  /** One cached item position: the item and the rectangle measured at start. */
  datatype ItemPosition = ItemPosition(drag: ItemId, clientRect: Rect, offset: int)

  function DragOf(pos: ItemPosition): ItemId {
    pos.drag
  }

  datatype DropList = DropList(
    id: ContainerId,
    rect: Rect,                       // the cached bounding rectangle
    rejects: set<ItemId>,             // items the enter predicate refuses
    siblings: seq<ContainerId>,       // containers this one may hand an item off to
    draggables: seq<ItemId>,          // the items, in display order
    activeDraggables: seq<ItemId>,    // the items as they were when dragging started
    positions: seq<ItemPosition>,     // the cached positions, in drag order
    activeSiblings: set<ContainerId>, // containers that have told this one they started
    isDragging: bool,
    previousSwap: Option<ItemId>,     // the item last found at a move's target slot
    lasteItem: int,                   // target index of the last reorder, -1 if none since start
    lastePoint: Option<Point>,        // pointer position remembered by the last sort step
    overlay: Option<seq<ItemId>>,     // children of the cloned overlay, named by the item each clones
    hidden: bool)                     // the live container element is hidden

  /** A container as constructed: nothing cached, no overlay, every item admitted,
      no siblings (the source never assigns `_siblings`). `rect` stands for the
      container's first measurement. */
  function Create(id: ContainerId, rect: Rect, draggables: seq<ItemId>): (c: DropList)
    ensures !c.isDragging && c.positions == [] && c.overlay.None? && c.siblings == []
    ensures c.draggables == draggables && c.lasteItem == -1
  {
    DropList(id, rect, {}, [], draggables, [], [], {}, false, None, -1, None, None, false)
  }

  /** The container-level `dropped` notification. */
  datatype DroppedNote = DroppedNote(item: ItemId, currentIndex: int, previousIndex: int, container: ContainerId)

  // ---------------------------------------------------------------- searching

  /** `findIndex`: the least index whose element satisfies `matches`, or -1. */
  function FindIndex<T>(s: seq<T>, matches: T -> bool): (r: int)
    ensures -1 <= r < |s|
    ensures r >= 0 ==> matches(s[r])
    ensures r >= 0 ==> forall j :: 0 <= j < r ==> !matches(s[j])
    ensures r == -1 <==> forall j :: 0 <= j < |s| ==> !matches(s[j])
    decreases |s|
  {
    if |s| == 0 then -1
    else if matches(s[0]) then 0
    else
      var k := FindIndex(s[1..], matches);
      if k == -1 then -1 else k + 1
  }

  /** `Array.prototype.indexOf`: the first position holding `x`, or -1. */
  function IndexOf(s: seq<ItemId>, x: ItemId): int {
    FindIndex(s, (y: ItemId) => y == x)
  }

  /** The position of `item` in the cached positions, or -1. */
  function IndexOfDrag(positions: seq<ItemPosition>, item: ItemId): int {
    FindIndex(positions, (pos: ItemPosition) => pos.drag == item)
  }

  /** The position of the first cached entry for `item` is its index. */
  lemma IndexOfDragIsFirst(positions: seq<ItemPosition>, item: ItemId, k: nat)
    requires k < |positions| && positions[k].drag == item
    requires forall j :: 0 <= j < k ==> positions[j].drag != item
    ensures IndexOfDrag(positions, item) == k
  {
  }

  // ---------------------------------------------------------------- hit-testing

  /** `_isOverContainer`: the inclusive test on the cached rectangle. */
  predicate IsOverContainer(c: DropList, p: Point) {
    IsInsideClientRect(c.rect, p)
  }

  /** `_canReceive`: the enter predicate admits the item, the point is inside the
      cached rectangle, and the topmost element at the point is the container's
      element or one of its descendants. */
  predicate CanReceive(c: DropList, item: ItemId, p: Point, top: Topmost) {
    if item in c.rejects || !IsInsideClientRect(c.rect, p) then false
    else if top.NoElement? then false
    else c.id in top.within
  }

  /** A container that can receive is one the point is over, and, for a
      rectangle with positive size, one the point is near. */
  lemma ReceivingImpliesNear(c: DropList, item: ItemId, p: Point, top: Topmost)
    requires CanReceive(c, item, p, top)
    requires c.rect.width > 0 && c.rect.height > 0
    ensures IsOverContainer(c, p) && IsPointerNear(c.rect, p)
  {
    InsideImpliesNear(c.rect, p);
  }

  predicate SiblingReceives(lists: map<ContainerId, DropList>, s: ContainerId, item: ItemId, p: Point, top: Topmost) {
    s in lists && CanReceive(lists[s], item, p, top)
  }

  /** `_getSiblingContainerFromPosition`: the first sibling, in list order, that can
      receive the item at the point. */
  function SiblingFromPosition(lists: map<ContainerId, DropList>, c: DropList, item: ItemId, p: Point, top: Topmost): (r: Option<ContainerId>)
    ensures r.Some? ==> r.value in c.siblings && SiblingReceives(lists, r.value, item, p, top)
    ensures r.Some? ==>
              exists k :: 0 <= k < |c.siblings| && c.siblings[k] == r.value &&
                          (forall j :: 0 <= j < k ==> !SiblingReceives(lists, c.siblings[j], item, p, top))
    ensures r.None? <==> forall s :: s in c.siblings ==> !SiblingReceives(lists, s, item, p, top)
  {
    var k := FindIndex(c.siblings, (s: ContainerId) => SiblingReceives(lists, s, item, p, top));
    if k == -1 then None else Some(c.siblings[k])
  }

  /** With no siblings (the only configuration the source can build, since nothing
      assigns `_siblings`) no sibling is ever found. */
  lemma NoSiblingsNoneFound(lists: map<ContainerId, DropList>, c: DropList, item: ItemId, p: Point, top: Topmost)
    requires c.siblings == []
    ensures SiblingFromPosition(lists, c, item, p, top) == None
  {
  }

  // ---------------------------------------------------------------- slot resolution

  function ResolveFrom(rects: seq<Rect>, p: Point, index: int, k: nat): (r: int)
    requires k <= |rects|
    ensures r == -1 || k <= r < |rects|
    ensures r >= 0 && r == index ==> |rects| < 2
    ensures r >= 0 && r != index ==> IsInsideClientRect(rects[r], p)
    ensures r >= 0 ==> forall j :: k <= j < r && j != index ==> !IsInsideClientRect(rects[j], p)
    ensures r == -1 ==> forall j :: k <= j < |rects| && j != index ==> !IsInsideClientRect(rects[j], p)
    ensures r == -1 ==> !(|rects| < 2 && k <= index < |rects|)
    decreases |rects| - k
  {
    if k == |rects| then -1
    else if index == k then
      if |rects| < 2 then k else ResolveFrom(rects, p, index, k + 1)
    else if IsInsideClientRect(rects[k], p) then k
    else ResolveFrom(rects, p, index, k + 1)
  }

  /** `_getItemIndexFromPointerPosition`: the first child other than the dragged
      item's slot `index` whose (floor-rounded) rectangle contains the point; the
      slot `index` itself only when there are fewer than two children; else -1. */
  function ItemIndexFromPointer(rects: seq<Rect>, p: Point, index: int): (r: int)
    ensures -1 <= r < |rects|
    ensures r >= 0 && r == index ==> |rects| < 2
    ensures r >= 0 && r != index ==> IsInsideClientRect(rects[r], p)
    ensures r >= 0 ==> forall j :: 0 <= j < r && j != index ==> !IsInsideClientRect(rects[j], p)
    ensures r == -1 ==> forall j :: 0 <= j < |rects| && j != index ==> !IsInsideClientRect(rects[j], p)
    ensures r == -1 ==> !(|rects| < 2 && 0 <= index < |rects|)
  {
    ResolveFrom(rects, p, index, 0)
  }

  /** With a single child the dragged item's own slot is always the answer. */
  lemma SingleChildResolvesToItself(rect: Rect, p: Point)
    ensures ItemIndexFromPointer([rect], p, 0) == 0
  {
  }

  // ---------------------------------------------------------------- overlay mirroring

  /** `parent.insertBefore(node, ref)` on a parent whose children are `children`:
      the child at `node` is detached and re-inserted just before the child at
      `ref`, or appended when there is no `ref`. Inserting a node before itself
      leaves it where it is. */
  function InsertBefore<T>(children: seq<T>, node: nat, ref: Option<nat>): (r: seq<T>)
    requires node < |children|
    requires ref.Some? ==> ref.value < |children|
    ensures |r| == |children|
  {
    var rest := RemoveAt(children, node);
    var at := match ref
      case None => |rest|
      case Some(k) => if k <= node then k else k - 1;
    InsertAt(rest, at, children[node])
  }

  /** How `_sortItem` relocates the overlay child at `currentIndex`: moving forward
      it goes before the child after the target slot (appended when there is
      none, or when the target is past the last of `count` cached positions);
      moving backward it goes before the child at the target slot. */
  function MirrorMove(children: seq<ItemId>, currentIndex: nat, newIndex: nat, count: int): seq<ItemId>
    requires currentIndex < |children| && newIndex < |children|
  {
    var ref :=
      if currentIndex < newIndex then
        if newIndex > count - 1 || newIndex + 1 >= |children| then None else Some(newIndex + 1)
      else Some(newIndex);
    InsertBefore(children, currentIndex, ref)
  }

  /** The overlay mirroring is the same single-step shift as `moveItemInArray`,
      in both directions, when the overlay has one child per cached position. */
  lemma MirrorMoveIsMove(children: seq<ItemId>, currentIndex: nat, newIndex: nat)
    requires currentIndex < |children| && newIndex < |children| && currentIndex != newIndex
    ensures MirrorMove(children, currentIndex, newIndex, |children|) == MoveItem(children, currentIndex, newIndex)
  {
  }

  // ---------------------------------------------------------------- sorting

  /** The invariant `start` establishes and every reorder keeps: while dragging,
      the cached positions, the items and the overlay's children are in the
      same order. */
  predicate InDragOrder(c: DropList) {
    c.isDragging ==> Project(c.positions, DragOf) == c.draggables && c.overlay == Some(c.draggables)
  }

  /** Result of one sort step: the container afterwards, and the TypeError the
      step threw, if any (changes made before the throw are kept). */
  datatype Sorted = Sorted(list: DropList, fault: Option<Fault>)

  /** The pointer and the remembered point both lie in the slot's rectangle. */
  predicate BothInSlot(slot: Rect, p: Point, last: Point) {
    IsInsideClientRect(slot, p) && IsInsideClientRect(slot, last)
  }

  /** `_sortItem`, the decision ladder: proximity gate, slot resolution, no match,
      hysteresis, remember the point, same index, then the move applied alike to
      the positions, the items and the overlay. `childRects` are the overlay
      children's floor-rounded rectangles. */
  function SortItem(c: DropList, item: ItemId, p: Point, childRects: seq<Rect>): (out: Sorted)
    requires c.overlay.Some? ==> |childRects| == |c.overlay.value|
    ensures out.list.id == c.id && out.list.rect == c.rect && out.list.siblings == c.siblings
    ensures out.list.isDragging == c.isDragging && out.list.rejects == c.rejects
    ensures |out.list.positions| == |c.positions|
    ensures multiset(out.list.draggables) == multiset(c.draggables)
    ensures out.list.overlay.Some? <==> c.overlay.Some?
  {
    if !IsPointerNear(c.rect, p) then Sorted(c.(lastePoint := Some(p)), None)
    else if c.overlay.None? then Sorted(c, Some(OverlayUndefined))
    else
      var children := c.overlay.value;
      var currentIndex := IndexOfDrag(c.positions, item);
      var newIndex := ItemIndexFromPointer(childRects, p, currentIndex);
      if newIndex == -1 && |c.positions| > 0 then Sorted(c.(lastePoint := Some(p)), None)
      else if c.lasteItem > -1 && c.lastePoint.Some? && newIndex == -1 then Sorted(c, Some(ChildUndefined))
      else if c.lasteItem > -1 && c.lastePoint.Some? && BothInSlot(childRects[newIndex], p, c.lastePoint.value) then
        Sorted(c, None)
      else
        var recorded := c.(lastePoint := Some(p));
        if currentIndex == newIndex then Sorted(recorded, None)
        else if newIndex >= |c.positions| then Sorted(recorded, Some(SiblingUndefined))
        else
          MoveRung(recorded, children, currentIndex, newIndex)
  }

  /** The last rung of `_sortItem`: remember the item found at the target slot and
      the target index, apply the same one-step move to the positions and the
      items, then relocate the moved overlay child. When there is no child at the
      current index the relocation throws after the arrays have moved. */
  function MoveRung(c: DropList, children: seq<ItemId>, currentIndex: int, newIndex: nat): (out: Sorted)
    requires newIndex < |c.positions| && newIndex < |children| && c.overlay == Some(children)
    ensures out.list.id == c.id && out.list.rect == c.rect && out.list.siblings == c.siblings
    ensures out.list.isDragging == c.isDragging && out.list.rejects == c.rejects
    ensures out.list.lasteItem == newIndex && out.list.lastePoint == c.lastePoint
    ensures out.list.positions == MoveItem(c.positions, currentIndex, newIndex)
    ensures out.list.draggables == MoveItem(c.draggables, currentIndex, newIndex)
    ensures multiset(out.list.draggables) == multiset(c.draggables) && out.list.overlay.Some?
    ensures out.fault.None? <==> 0 <= currentIndex < |children|
  {
    var moved := c.(
      previousSwap := Some(c.positions[newIndex].drag),
      lasteItem := newIndex,
      positions := MoveItem(c.positions, currentIndex, newIndex),
      draggables := MoveItem(c.draggables, currentIndex, newIndex));
    if currentIndex < 0 || currentIndex >= |children| then Sorted(moved, Some(MovedChildUndefined))
    else Sorted(moved.(overlay := Some(MirrorMove(children, currentIndex, newIndex, |c.positions|))), None)
  }

  /** The slot the sort step resolves for `item` at `p`. */
  function TargetSlot(c: DropList, item: ItemId, p: Point, childRects: seq<Rect>): int {
    ItemIndexFromPointer(childRects, p, IndexOfDrag(c.positions, item))
  }

  /** Outside the proximity region the step only remembers the point. */
  lemma SortOutsideProximityOnlyRecords(c: DropList, item: ItemId, p: Point, childRects: seq<Rect>)
    requires c.overlay.Some? ==> |childRects| == |c.overlay.value|
    requires !IsPointerNear(c.rect, p)
    ensures SortItem(c, item, p, childRects) == Sorted(c.(lastePoint := Some(p)), None)
  {
  }

  /** When no slot matches and there are cached positions, the step only
      remembers the point. */
  lemma SortNoMatchOnlyRecords(c: DropList, item: ItemId, p: Point, childRects: seq<Rect>)
    requires c.overlay.Some? && |childRects| == |c.overlay.value|
    requires IsPointerNear(c.rect, p)
    requires TargetSlot(c, item, p, childRects) == -1 && |c.positions| > 0
    ensures SortItem(c, item, p, childRects) == Sorted(c.(lastePoint := Some(p)), None)
  {
  }

  /** Hysteresis: after a reorder since start, a pointer that stays in the
      resolved slot's rectangle together with the remembered point changes
      nothing at all, not even the remembered point. */
  lemma SortHysteresisSkips(c: DropList, item: ItemId, p: Point, childRects: seq<Rect>)
    requires c.overlay.Some? && |childRects| == |c.overlay.value|
    requires IsPointerNear(c.rect, p)
    requires 0 <= TargetSlot(c, item, p, childRects)
    requires c.lasteItem > -1 && c.lastePoint.Some?
    requires BothInSlot(childRects[TargetSlot(c, item, p, childRects)], p, c.lastePoint.value)
    ensures SortItem(c, item, p, childRects) == Sorted(c, None)
  {
  }

  /** Resolving the item's own slot reorders nothing. */
  lemma SortSameIndexNoMove(c: DropList, item: ItemId, p: Point, childRects: seq<Rect>)
    requires c.overlay.Some? && |childRects| == |c.overlay.value|
    requires IndexOfDrag(c.positions, item) >= 0
    requires TargetSlot(c, item, p, childRects) == IndexOfDrag(c.positions, item)
    ensures SortItem(c, item, p, childRects).list.positions == c.positions
    ensures SortItem(c, item, p, childRects).list.draggables == c.draggables
    ensures SortItem(c, item, p, childRects).list.overlay == c.overlay
    ensures SortItem(c, item, p, childRects).fault.None?
  {
  }

  /** A coherent container dragging an item it holds never throws while sorting,
      and a step either leaves the order alone or applies the same single-step
      move to the positions, the items and the overlay, remembering the target
      index: the drag order is preserved. */
  lemma SortKeepsDragOrder(c: DropList, item: ItemId, p: Point, childRects: seq<Rect>)
    requires c.isDragging && InDragOrder(c) && item in c.draggables
    requires |childRects| == |c.draggables|
    ensures SortItem(c, item, p, childRects).fault.None?
    ensures InDragOrder(SortItem(c, item, p, childRects).list)
    ensures KeptOrMoved(c, SortItem(c, item, p, childRects).list, IndexOfDrag(c.positions, item), TargetSlot(c, item, p, childRects))
  {
    var out := SortItem(c, item, p, childRects);
    var positions := c.positions;
    var children := c.overlay.value;
    assert |positions| == |c.draggables| == |children|;
    var from := IndexOfDrag(positions, item);
    var k :| 0 <= k < |c.draggables| && c.draggables[k] == item;
    assert positions[k].drag == item;
    assert 0 <= from < |positions|;
    var to := TargetSlot(c, item, p, childRects);
    if !IsPointerNear(c.rect, p) {
      assert out.list == c.(lastePoint := Some(p));
    } else if to == -1 {
      assert out.list == c.(lastePoint := Some(p));
    } else if c.lasteItem > -1 && c.lastePoint.Some? && BothInSlot(childRects[to], p, c.lastePoint.value) {
      assert out.list == c;
    } else if to == from {
      assert out.list == c.(lastePoint := Some(p));
    } else {
      var moved := c.(lastePoint := Some(p),
            previousSwap := Some(positions[to].drag),
            lasteItem := to,
            positions := MoveItem(positions, from, to),
            draggables := MoveItem(c.draggables, from, to),
            overlay := Some(MirrorMove(children, from, to, |positions|)));
      assert out == Sorted(moved, None);
      MirrorMoveIsMove(children, from, to);
      MoveCommutesWithMap(positions, DragOf, from, to);
    }
  }

  /** The move rung of the ladder: near the container, with a resolved slot other
      than the item's own and the hysteresis guard not firing, the step moves the
      item to that slot, in the items, the positions and the overlay alike, and
      remembers the slot and the point. */
  lemma SortMovesToResolvedSlot(c: DropList, item: ItemId, p: Point, childRects: seq<Rect>)
    requires c.isDragging && InDragOrder(c) && item in c.draggables
    requires |childRects| == |c.draggables|
    requires IsPointerNear(c.rect, p)
    requires var to := TargetSlot(c, item, p, childRects);
      && to >= 0 && to != IndexOfDrag(c.positions, item)
      && !(c.lasteItem > -1 && c.lastePoint.Some? && BothInSlot(childRects[to], p, c.lastePoint.value))
    ensures var out := SortItem(c, item, p, childRects);
      var from := IndexOfDrag(c.positions, item);
      var to := TargetSlot(c, item, p, childRects);
      && out.fault.None?
      && out.list.draggables == MoveItem(c.draggables, from, to)
      && out.list.overlay == Some(out.list.draggables)
      && out.list.lasteItem == to && out.list.lastePoint == Some(p)
      && Project(out.list.positions, DragOf) == out.list.draggables
  {
    var out := SortItem(c, item, p, childRects);
    var positions := c.positions;
    var children := c.overlay.value;
    assert |positions| == |c.draggables| == |children|;
    var from := IndexOfDrag(positions, item);
    var to := TargetSlot(c, item, p, childRects);
    var k :| 0 <= k < |c.draggables| && c.draggables[k] == item;
    assert positions[k].drag == item;
    assert 0 <= from < |positions|;
    var moved := c.(lastePoint := Some(p),
          previousSwap := Some(positions[to].drag),
          lasteItem := to,
          positions := MoveItem(positions, from, to),
          draggables := MoveItem(c.draggables, from, to),
          overlay := Some(MirrorMove(children, from, to, |positions|)));
    assert out == Sorted(moved, None);
    MirrorMoveIsMove(children, from, to);
    MoveCommutesWithMap(positions, DragOf, from, to);
  }

  /** `after` has the order of `before`, or the single-step move from `from` to `to`
      applied to its items and positions, with `to` remembered. */
  predicate KeptOrMoved(before: DropList, after: DropList, from: int, to: int) {
    || (after.draggables == before.draggables && after.positions == before.positions && after.overlay == before.overlay)
    || (&& 0 <= from < |before.draggables| && 0 <= to < |before.draggables| && from != to
        && after.draggables == MoveItem(before.draggables, from, to)
        && after.positions == MoveItem(before.positions, from, to)
        && after.lasteItem == to)
  }

  /** Once a reorder has happened and the pointer is the remembered point, the
      sort step moves nothing: any slot it resolves other than the item's own
      contains the point, so the hysteresis guard fires. */
  lemma RememberedPointBlocksMove(c: DropList, item: ItemId, p: Point, childRects: seq<Rect>)
    requires c.isDragging && InDragOrder(c) && item in c.draggables
    requires |childRects| == |c.draggables|
    requires c.lasteItem > -1 && c.lastePoint == Some(p)
    ensures var out := SortItem(c, item, p, childRects);
      out.fault.None? && out.list.draggables == c.draggables &&
      out.list.positions == c.positions && out.list.overlay == c.overlay
  {
    SortKeepsDragOrder(c, item, p, childRects);
    var from := IndexOfDrag(c.positions, item);
    var to := TargetSlot(c, item, p, childRects);
    if IsPointerNear(c.rect, p) && 0 <= to && to != from {
      assert IsInsideClientRect(childRects[to], p);
      assert SortItem(c, item, p, childRects) == Sorted(c, None);
    }
  }

  /** Calling the sort step twice with the same pointer position moves nothing
      the second time. */
  lemma SortTwiceIsStable(c: DropList, item: ItemId, p: Point, childRects: seq<Rect>)
    requires c.isDragging && InDragOrder(c) && item in c.draggables
    requires |childRects| == |c.draggables|
    ensures var once := SortItem(c, item, p, childRects).list;
      var twice := SortItem(once, item, p, childRects);
      twice.fault.None? && twice.list.draggables == once.draggables &&
      twice.list.positions == once.positions && twice.list.overlay == once.overlay
  {
    SortKeepsDragOrder(c, item, p, childRects);
    var once := SortItem(c, item, p, childRects).list;
    assert multiset(once.draggables) == multiset(c.draggables);
    assert item in multiset(once.draggables);
    var from := IndexOfDrag(c.positions, item);
    var to := TargetSlot(c, item, p, childRects);
    if IsPointerNear(c.rect, p) && 0 <= to && to != from &&
       !(c.lasteItem > -1 && c.lastePoint.Some? && BothInSlot(childRects[to], p, c.lastePoint.value)) {
      assert once.lasteItem == to && once.lastePoint == Some(p);
      RememberedPointBlocksMove(once, item, p, childRects);
    } else {
      assert once.positions == c.positions;
      SortKeepsDragOrder(once, item, p, childRects);
      assert TargetSlot(once, item, p, childRects) == to;
      assert once == c || once == c.(lastePoint := Some(p));
    }
  }

  /** A container holding one item never reorders. */
  lemma SingleItemNeverReorders(c: DropList, item: ItemId, p: Point, childRects: seq<Rect>)
    requires c.isDragging && InDragOrder(c) && c.draggables == [item]
    requires |childRects| == 1
    ensures SortItem(c, item, p, childRects).list.draggables == [item]
  {
    SortKeepsDragOrder(c, item, p, childRects);
  }

  // ---------------------------------------------------------------- start / receive

  /** The rectangle `start` caches for one item: its placeholder's when the
      registry lists it as being dragged (its own element is hidden then), else
      its root element's. */
  function MeasureItem(drag: ItemId, dragging: set<ItemId>, scene: Scene): (pos: ItemPosition)
    ensures pos.drag == drag && pos.offset == 0
    ensures drag in dragging ==> pos.clientRect == scene.placeholderRect(drag)
    ensures drag !in dragging ==> pos.clientRect == scene.rootRect(drag)
  {
    var rect := if drag in dragging then scene.placeholderRect(drag) else scene.rootRect(drag);
    ItemPosition(drag, rect, 0)
  }

  /** `_startReceiving`: record the sibling and re-measure the own rectangle, the
      first time only. */
  function StartReceiving(c: DropList, sibling: ContainerId, measured: Rect): (r: DropList)
    ensures r.activeSiblings == c.activeSiblings + {sibling}
    ensures sibling in c.activeSiblings ==> r == c
    ensures sibling !in c.activeSiblings ==> r == c.(activeSiblings := r.activeSiblings, rect := measured)
  {
    if sibling in c.activeSiblings then c
    else c.(activeSiblings := c.activeSiblings + {sibling}, rect := measured)
  }

  /** A sibling is recorded at most once: the second notice changes nothing. */
  lemma StartReceivingOnce(c: DropList, sibling: ContainerId, first: Rect, second: Rect)
    ensures StartReceiving(StartReceiving(c, sibling, first), sibling, second) == StartReceiving(c, sibling, first)
  {
  }

  /** `b` differs from `a` at most in what `_startReceiving` touches. */
  predicate OnlyReceivingChanged(a: DropList, b: DropList) {
    b == a.(rect := b.rect, activeSiblings := b.activeSiblings) && a.activeSiblings <= b.activeSiblings
  }

  /** Every sibling in `sibs`, in order, records that container `from` started;
      containers outside the map are skipped. */
  function ReceiveAll(lists: map<ContainerId, DropList>, sibs: seq<ContainerId>, from: ContainerId, scene: Scene): (r: map<ContainerId, DropList>)
    ensures r.Keys == lists.Keys
    ensures forall k :: k in lists ==> OnlyReceivingChanged(lists[k], r[k])
    ensures forall k :: k in lists && k !in sibs ==> r[k] == lists[k]
    ensures forall k :: k in lists && k in sibs ==> from in r[k].activeSiblings
    decreases |sibs|
  {
    if |sibs| == 0 then lists
    else
      var s := sibs[0];
      var next := if s in lists then lists[s := StartReceiving(lists[s], from, scene.containerRect(s))] else lists;
      ReceiveAll(next, sibs[1..], from, scene)
  }

  /** The part of `start` on the container itself: reset the sort memory, mark it
      dragging, cache the items and their rectangles and its own rectangle, build
      the overlay from its children, and hide the live element. */
  function StartLocal(c: DropList, dragging: set<ItemId>, scene: Scene): (r: DropList)
    ensures r.isDragging && r.lasteItem == -1 && r.lastePoint.None? && r.hidden
    ensures r.draggables == c.draggables && r.activeDraggables == c.draggables
    ensures InDragOrder(r)
    ensures r.rect == scene.containerRect(c.id)
    ensures forall i :: 0 <= i < |r.positions| ==> r.positions[i] == MeasureItem(c.draggables[i], dragging, scene)
  {
    var positions := seq(|c.draggables|, i requires 0 <= i < |c.draggables| => MeasureItem(c.draggables[i], dragging, scene));
    assert Project(positions, DragOf) == c.draggables;
    c.(lasteItem := -1, lastePoint := None, isDragging := true,
       activeDraggables := c.draggables, positions := positions,
       rect := scene.containerRect(c.id),
       overlay := Some(c.draggables), hidden := true)
  }

  /** `start` (the notification `beforeStarted` is logged by the caller): the
      container begins dragging in drag order, and every sibling records it. */
  function Start(lists: map<ContainerId, DropList>, id: ContainerId, dragging: set<ItemId>, scene: Scene): (r: map<ContainerId, DropList>)
    requires id in lists
    ensures r.Keys == lists.Keys
    ensures r[id].isDragging && InDragOrder(r[id]) && r[id].lasteItem == -1 && r[id].lastePoint.None?
    ensures r[id].draggables == lists[id].draggables && r[id].id == lists[id].id
    ensures forall s :: s in lists[id].siblings && s in lists ==> id in r[s].activeSiblings
    ensures forall k :: k in lists && k != id && k !in lists[id].siblings ==> r[k] == lists[k]
  {
    var started := lists[id := StartLocal(lists[id], dragging, scene)];
    ReceiveAll(started, lists[id].siblings, id, scene)
  }

  // ---------------------------------------------------------------- index / drop

  /** `getItemIndex`: the position in the items when not dragging, the position
      in the cached positions while dragging; -1 when absent. */
  function GetItemIndex(c: DropList, item: ItemId): (r: int)
    ensures !c.isDragging ==> -1 <= r < |c.draggables|
    ensures !c.isDragging && r >= 0 ==> c.draggables[r] == item && item !in c.draggables[..r]
    ensures !c.isDragging ==> (r == -1 <==> item !in c.draggables)
    ensures c.isDragging ==> -1 <= r < |c.positions|
    ensures c.isDragging && r >= 0 ==> c.positions[r].drag == item
    ensures c.isDragging && r >= 0 ==> forall j :: 0 <= j < r ==> c.positions[j].drag != item
    ensures c.isDragging ==> (r == -1 <==> forall j :: 0 <= j < |c.positions| ==> c.positions[j].drag != item)
  {
    if !c.isDragging then IndexOf(c.draggables, item)
    else IndexOfDrag(c.positions, item)
  }

  /** In drag order, both ways of reading the index agree with the item's place
      in the items. */
  lemma GetItemIndexFollowsItems(c: DropList, item: ItemId)
    requires InDragOrder(c)
    ensures GetItemIndex(c, item) == IndexOf(c.draggables, item)
  {
    if c.isDragging {
      var a := IndexOfDrag(c.positions, item);
      var b := IndexOf(c.draggables, item);
      assert forall j :: 0 <= j < |c.positions| ==> c.positions[j].drag == c.draggables[j];
    }
  }

  /** Index bijection: when the items are distinct and in drag order, each item's
      index is its position. */
  lemma IndexIsPosition(c: DropList)
    requires InDragOrder(c)
    requires forall i, j :: 0 <= i < j < |c.draggables| ==> c.draggables[i] != c.draggables[j]
    ensures forall i :: 0 <= i < |c.draggables| ==> GetItemIndex(c, c.draggables[i]) == i
  {
    forall i | 0 <= i < |c.draggables|
      ensures GetItemIndex(c, c.draggables[i]) == i
    {
      GetItemIndexFollowsItems(c, c.draggables[i]);
    }
  }

  /** `_reset`: leave dragging mode and forget the cached items and positions. The
      sort memory (`lasteItem`, `lastePoint`) is not reset. */
  function Reset(c: DropList): (r: DropList)
    ensures !r.isDragging && r.positions == [] && r.activeDraggables == [] && r.previousSwap.None?
    ensures r.draggables == c.draggables && r.lasteItem == c.lasteItem && r.lastePoint == c.lastePoint
    ensures InDragOrder(r)
  {
    c.(isDragging := false, activeDraggables := [], positions := [], previousSwap := None)
  }

  /** `drop`: reset, then announce exactly the given item and indices with this
      container. The previous container argument is not used. */
  function Drop(c: DropList, item: ItemId, currentIndex: int, previousIndex: int): (r: (DropList, DroppedNote))
    ensures !r.0.isDragging && r.0.positions == [] && r.0.draggables == c.draggables
    ensures r.1 == DroppedNote(item, currentIndex, previousIndex, c.id)
  {
    (Reset(c), DroppedNote(item, currentIndex, previousIndex, c.id))
  }

  /** After a drop, with distinct items, every item's index is its position. */
  lemma IndexIsPositionAfterDrop(c: DropList, item: ItemId, currentIndex: int, previousIndex: int)
    requires forall i, j :: 0 <= i < j < |c.draggables| ==> c.draggables[i] != c.draggables[j]
    ensures var d := Drop(c, item, currentIndex, previousIndex).0;
      forall i :: 0 <= i < |d.draggables| ==> GetItemIndex(d, d.draggables[i]) == i
  {
    IndexIsPosition(Drop(c, item, currentIndex, previousIndex).0);
  }
}

=== FILE: geometry.dfy ===
/** Points, client rectangles and the two hit tests on them: the inclusive
    rectangle test and the proximity test with a 5% margin. Coordinates are
    integers (the engine floor-rounds child rectangles before testing them). */
module Geometry {
  import opened Basics

  datatype Point = Point(x: int, y: int)

  function Plus(a: Point, b: Point): Point {
    Point(a.x + b.x, a.y + b.y)
  }

  function Minus(a: Point, b: Point): Point {
    Point(a.x - b.x, a.y - b.y)
  }

  /** A client rectangle as the browser reports it. `width` and `height` are
      separate fields, as in the source, and are not forced to agree with the edges. */
  datatype Rect = Rect(top: int, left: int, right: int, bottom: int, width: int, height: int)

  /** The rectangle's fields agree with each other. */
  predicate WellFormed(r: Rect) {
    r.width == r.right - r.left && r.height == r.bottom - r.top && r.width >= 0 && r.height >= 0
  }

  /** `isInsideClientRect`: inclusive on all four edges. */
  predicate IsInsideClientRect(r: Rect, p: Point) {
    p.y >= r.top && p.y <= r.bottom && p.x >= r.left && p.x <= r.right
  }

  /** `DROP_PROXIMITY_THRESHOLD`: the fraction of each dimension added on each side. */
  const DropProximityThreshold: real := 0.05

  /** `_isPointerNearDropContainer`: strict inequalities against the rectangle grown
      by 5% of its width on the left and right and 5% of its height on top and bottom. */
  predicate IsPointerNear(r: Rect, p: Point) {
    var xThreshold := r.width as real * DropProximityThreshold;
    var yThreshold := r.height as real * DropProximityThreshold;
    && (p.y as real) > (r.top as real) - yThreshold
    && (p.y as real) < (r.bottom as real) + yThreshold
    && (p.x as real) > (r.left as real) - xThreshold
    && (p.x as real) < (r.right as real) + xThreshold
  }

  /** The proximity test in integer terms: scaling every side by 20 turns the 5%
      margin into exactly one width (or height). */
  lemma NearIffScaled(r: Rect, p: Point)
    ensures IsPointerNear(r, p) <==>
      && 20 * p.y > 20 * r.top - r.height
      && 20 * p.y < 20 * r.bottom + r.height
      && 20 * p.x > 20 * r.left - r.width
      && 20 * p.x < 20 * r.right + r.width
  {
  }

  /** A point inside a rectangle with positive width and height is near it:
      the proximity region strictly contains the inclusive one. */
  lemma InsideImpliesNear(r: Rect, p: Point)
    requires r.width > 0 && r.height > 0
    requires IsInsideClientRect(r, p)
    ensures IsPointerNear(r, p)
  {
    NearIffScaled(r, p);
  }

  /** On a degenerate rectangle (zero width) no point is near, even one on its
      edge that the inclusive test accepts. */
  lemma FlatRectNeverNear(r: Rect, p: Point)
    requires r.width == 0 && r.left == r.right
    ensures !IsPointerNear(r, p)
  {
    NearIffScaled(r, p);
  }

  /** What `elementFromPoint` reports at the pointer: no element at all, or an
      element together with the set of containers that are it or an ancestor of it. */
  datatype Topmost = NoElement | Element(within: set<ContainerId>)

  /** The environment's geometry at one pointer event: the bounding rectangle of
      each container element, of each item's root element and placeholder, of
      each child of a container's overlay (already floor-rounded), and the
      topmost element at the pointer. */
  datatype Scene = Scene(
    containerRect: ContainerId -> Rect,
    rootRect: ItemId -> Rect,
    placeholderRect: ItemId -> Rect,
    childRect: (ContainerId, nat) -> Rect,
    topmost: Topmost)
}

=== FILE: registry.dfy ===
/** The process-wide drag registry: which items are registered, which containers
    are registered, which items are being dragged, and which document-level
    listeners are bound. Real listener registration is abstracted as the map
    from bound event name to the handler it runs. */
module DragDropRegistry {
  import opened Basics

  /** The document-level handler a bound event name runs. */
  datatype Handler = PublishPointerMove | PublishPointerUp | PreventDefaultWhileDragging

  datatype Registry = Registry(
    active: set<ItemId>,                 // `_activeDragInstances`
    items: set<ItemId>,                  // `_dragInstances`
    containers: set<ContainerId>,        // `_dropInstances`
    listeners: map<string, Handler>)     // `_globalListeners`

  /** The registry as the service constructs it. */
  const Initial: Registry := Registry({}, {}, {}, map[])

  /** The central invariant: document listeners are bound exactly while some item
      is being dragged. */
  predicate ListenersTrackActive(r: Registry) {
    (r.listeners == map[]) <==> (r.active == {})
  }

  /** Whether the gesture was begun by a touch device: the event type starts with
      the five letters of "touch". */
  predicate IsTouchEvent(eventType: string) {
    |eventType| >= 5 && eventType[..5] == "touch"
  }

  /** The listeners `startDragging` binds for a gesture that began with an event
      of type `eventType`: the move and up events of that device, `selectstart`,
      and `wheel` only for a non-touch device. */
  function Bindings(eventType: string): (m: map<string, Handler>)
    ensures IsTouchEvent(eventType) ==> m.Keys == {"touchmove", "touchend", "selectstart"}
    ensures !IsTouchEvent(eventType) ==> m.Keys == {"mousemove", "mouseup", "selectstart", "wheel"}
    ensures forall name :: name in m ==> (m[name] == PublishPointerMove <==> name == "touchmove" || name == "mousemove")
    ensures forall name :: name in m ==> (m[name] == PublishPointerUp <==> name == "touchend" || name == "mouseup")
    ensures forall name :: name in m ==> (m[name] == PreventDefaultWhileDragging <==> name == "selectstart" || name == "wheel")
  {
    if IsTouchEvent(eventType) then
      map["touchmove" := PublishPointerMove,
          "touchend" := PublishPointerUp,
          "selectstart" := PreventDefaultWhileDragging]
    else
      map["mousemove" := PublishPointerMove,
          "mouseup" := PublishPointerUp,
          "selectstart" := PreventDefaultWhileDragging,
          "wheel" := PreventDefaultWhileDragging]
  }

  /** `isDragging` */
  predicate IsDragging(r: Registry, drag: ItemId) {
    drag in r.active
  }

  /** `startDragging`: add the item to the active set and bind the listeners when
      the active set then holds exactly one item. */
  function StartDragging(r: Registry, drag: ItemId, eventType: string): (r': Registry)
    ensures IsDragging(r', drag)
    ensures r'.active == r.active + {drag}
    ensures r'.items == r.items && r'.containers == r.containers
    ensures ListenersTrackActive(r) ==> ListenersTrackActive(r')
    ensures |r'.active| != 1 ==> r'.listeners == r.listeners
    ensures forall name :: name in Bindings(eventType) && |r'.active| == 1 ==>
      name in r'.listeners && r'.listeners[name] == Bindings(eventType)[name]
  {
    var active := r.active + {drag};
    if |active| == 1 then
      r.(active := active, listeners := r.listeners + Bindings(eventType))
    else
      r.(active := active)
  }

  /** `_clearGlobalListeners`: every bound listener is removed. */
  function ClearGlobalListeners(r: Registry): (r': Registry)
    ensures r'.listeners == map[]
    ensures r'.active == r.active && r'.items == r.items && r'.containers == r.containers
  {
    r.(listeners := map[])
  }

  /** `stopDragging`: remove the item from the active set; when the set becomes
      empty, clear the listeners. */
  function StopDragging(r: Registry, drag: ItemId): (r': Registry)
    ensures !IsDragging(r', drag)
    ensures r'.active == r.active - {drag}
    ensures r'.items == r.items && r'.containers == r.containers
    ensures r'.active == {} ==> r'.listeners == map[]
    ensures r'.active != {} ==> r'.listeners == r.listeners
    ensures ListenersTrackActive(r) ==> ListenersTrackActive(r')
  {
    var r1 := r.(active := r.active - {drag});
    if |r1.active| == 0 then ClearGlobalListeners(r1) else r1
  }

  /** `removeDragItem`: unregister the item, then stop its drag. */
  function RemoveDragItem(r: Registry, drag: ItemId): (r': Registry)
    ensures drag !in r'.items && !IsDragging(r', drag)
    ensures r'.items == r.items - {drag} && r'.active == r.active - {drag}
    ensures r'.containers == r.containers
    ensures ListenersTrackActive(r) ==> ListenersTrackActive(r')
  {
    StopDragging(r.(items := r.items - {drag}), drag)
  }

  /** `registerDragItem` */
  function RegisterDragItem(r: Registry, drag: ItemId): (r': Registry)
    ensures r'.items == r.items + {drag}
    ensures r'.active == r.active && r'.containers == r.containers && r'.listeners == r.listeners
  {
    r.(items := r.items + {drag})
  }

  /** `registerDropContainer`: adds the container only if it is not yet present. */
  function RegisterDropContainer(r: Registry, drop: ContainerId): (r': Registry)
    ensures r'.containers == r.containers + {drop}
    ensures r'.active == r.active && r'.items == r.items && r'.listeners == r.listeners
  {
    if drop in r.containers then r else r.(containers := r.containers + {drop})
  }

  /** `_preventDefaultWhileDragging`: whether the guard cancels the event's default
      action (the source tests the active set's size for truthiness). */
  function PreventsDefault(r: Registry): (prevent: bool)
    ensures prevent <==> exists drag :: drag in r.active
  {
    |r.active| > 0
  }

  /** While the registry keeps its invariant, a bound guard always cancels the
      default action: text selection and wheel scrolling are blocked for the whole
      drag and never after it. */
  lemma BoundGuardPrevents(r: Registry, name: string)
    requires ListenersTrackActive(r)
    requires name in r.listeners && r.listeners[name] == PreventDefaultWhileDragging
    ensures PreventsDefault(r)
  {
  }

  /** Starting the first drag binds exactly the four mouse listeners: the move and
      up events publish the pointer streams, and `selectstart` and `wheel` run the
      default-action guard. */
  lemma FirstMouseStartBindsFour(r: Registry, drag: ItemId)
    requires r.active == {} && ListenersTrackActive(r)
    ensures StartDragging(r, drag, "mousedown").listeners ==
      map["mousemove" := PublishPointerMove, "mouseup" := PublishPointerUp,
          "selectstart" := PreventDefaultWhileDragging, "wheel" := PreventDefaultWhileDragging]
  {
    assert !IsTouchEvent("mousedown") by {
      // the first letter already differs from the "touch" prefix
      assert "mousedown"[..5][0] == 'm';
    }
    assert r.active + {drag} == {drag};
  }

  /** Starting the first drag from a touch binds three listeners and no wheel
      guard: the move and up events publish the pointer streams, and `selectstart`
      runs the default-action guard. */
  lemma FirstTouchStartBindsThree(r: Registry, drag: ItemId)
    requires r.active == {} && ListenersTrackActive(r)
    ensures StartDragging(r, drag, "touchstart").listeners ==
      map["touchmove" := PublishPointerMove, "touchend" := PublishPointerUp, "selectstart" := PreventDefaultWhileDragging]
    ensures "wheel" !in StartDragging(r, drag, "touchstart").listeners
  {
    assert IsTouchEvent("touchstart");
    assert r.active + {drag} == {drag};
  }

  /** A second, distinct item starting while one is active does not rebind. */
  lemma SecondStartDoesNotRebind(r: Registry, first: ItemId, second: ItemId, eventType: string)
    requires r.active == {first} && first != second
    ensures |StartDragging(r, second, eventType).active| == 2
    ensures StartDragging(r, second, eventType).listeners == r.listeners
  {
    assert r.active + {second} == {first, second};
  }

  /** Re-starting the sole active item runs the binding again (the set is still of
      size one), merging the new device's listeners into the bound ones. */
  lemma RestartOfSoleItemRebinds(r: Registry, drag: ItemId, eventType: string)
    requires r.active == {drag}
    ensures StartDragging(r, drag, eventType).listeners == r.listeners + Bindings(eventType)
  {
    assert r.active + {drag} == {drag};
  }

  /** Stopping an item that is not active is harmless once the invariant holds, and
      stopping twice is the same as stopping once. */
  lemma StopIsHarmlessAndIdempotent(r: Registry, drag: ItemId)
    ensures StopDragging(StopDragging(r, drag), drag) == StopDragging(r, drag)
    ensures ListenersTrackActive(r) && !IsDragging(r, drag) ==> StopDragging(r, drag) == r
  {
    if ListenersTrackActive(r) && !IsDragging(r, drag) {
      assert r.active - {drag} == r.active;
    }
  }

  /** Both registrations are idempotent. */
  lemma RegistrationIsIdempotent(r: Registry, drag: ItemId, drop: ContainerId)
    ensures RegisterDragItem(RegisterDragItem(r, drag), drag) == RegisterDragItem(r, drag)
    ensures RegisterDropContainer(RegisterDropContainer(r, drop), drop) == RegisterDropContainer(r, drop)
  {
  }

  /** One call into the registry. */
  datatype Call =
    | Start(drag: ItemId, eventType: string)
    | Stop(drag: ItemId)
    | Remove(drag: ItemId)
    | RegisterItem(drag: ItemId)
    | RegisterContainer(drop: ContainerId)

  function Apply(r: Registry, call: Call): Registry {
    match call
    case Start(drag, eventType) => StartDragging(r, drag, eventType)
    case Stop(drag) => StopDragging(r, drag)
    case Remove(drag) => RemoveDragItem(r, drag)
    case RegisterItem(drag) => RegisterDragItem(r, drag)
    case RegisterContainer(drop) => RegisterDropContainer(r, drop)
  }

  /** The registry after a sequence of calls, in order. */
  function Run(r: Registry, calls: seq<Call>): Registry
    decreases |calls|
  {
    if |calls| == 0 then r else Run(Apply(r, calls[0]), calls[1..])
  }

  /** For any interleaving of calls, listeners stay bound exactly while the active
      set is non-empty. */
  lemma {:induction false} RunKeepsListenersTracking(r: Registry, calls: seq<Call>)
    requires ListenersTrackActive(r)
    ensures ListenersTrackActive(Run(r, calls))
    decreases |calls|
  {
    if |calls| > 0 {
      RunKeepsListenersTracking(Apply(r, calls[0]), calls[1..]);
    }
  }

  /** From a freshly constructed registry, every sequence of calls keeps listeners
      bound exactly while some item is being dragged. */
  lemma FromInitialListenersTrackActive(calls: seq<Call>)
    ensures ListenersTrackActive(Run(Initial, calls))
  {
    RunKeepsListenersTracking(Initial, calls);
  }
}

=== FILE: reorder.dfy ===
/** The single-step reordering primitive every reorder goes through:
    `moveItemInArray` with its index clamping. */
module Reorder {

  /** `clamp(value, max)`: the nearest point of [0, max] to `value`, and 0 when max < 0. */
  function Clamp(value: int, max: int): (r: int)
    ensures max >= 0 ==> 0 <= r <= max
    ensures max < 0 ==> r == 0
    ensures 0 <= value <= max ==> r == value
    ensures value < 0 ==> r == 0
    ensures 0 <= max < value ==> r == max
  {
    var lower := if max < value then max else value;
    if lower < 0 then 0 else lower
  }

  /** `s` with position `i` removed. */
  function RemoveAt<T>(s: seq<T>, i: nat): (r: seq<T>)
    requires i < |s|
    ensures |r| == |s| - 1
  {
    s[..i] + s[i + 1..]
  }

  /** `s` with `x` inserted so that it ends up at position `i`. */
  function InsertAt<T>(s: seq<T>, i: nat, x: T): (r: seq<T>)
    requires i <= |s|
    ensures |r| == |s| + 1
  {
    s[..i] + [x] + s[i..]
  }

  /** `moveItemInArray` as a reference definition: clamp both indices into
      [0, length - 1], then take the element at `from` out and put it back at `to`. */
  function MoveItem<T>(s: seq<T>, fromIndex: int, toIndex: int): (r: seq<T>)
    ensures |r| == |s|
    ensures multiset(r) == multiset(s)
    ensures |s| > 0 ==> r[Clamp(toIndex, |s| - 1)] == s[Clamp(fromIndex, |s| - 1)]
  {
    var from := Clamp(fromIndex, |s| - 1);
    var to := Clamp(toIndex, |s| - 1);
    if from == to then s
    else
      var rest := RemoveAt(s, from);
      assert s == s[..from] + [s[from]] + s[from + 1..];
      assert multiset(s) == multiset(rest) + multiset{s[from]};
      assert rest[..to] + rest[to..] == rest;
      assert multiset(InsertAt(rest, to, s[from])) == multiset(rest[..to]) + multiset{s[from]} + multiset(rest[to..]);
      InsertAt(rest, to, s[from])
  }

  /** What the source's loop leaves at position `i` after moving `from` to `to`
      (both already clamped): the moved element at `to`, a shift by one towards the
      vacated slot strictly between them, and the old element everywhere else. */
  function ShiftedAt<T>(s: seq<T>, from: nat, to: nat, i: nat): T
    requires from < |s| && to < |s| && i < |s|
  {
    if i == to then s[from]
    else if from < to && from <= i < to then s[i + 1]
    else if to < from && to < i <= from then s[i - 1]
    else s[i]
  }

  /** The reference definition agrees with the shifting loop at every position. */
  lemma MoveItemPointwise<T>(s: seq<T>, from: nat, to: nat)
    requires from < |s| && to < |s|
    ensures forall i :: 0 <= i < |s| ==> MoveItem(s, from, to)[i] == ShiftedAt(s, from, to, i)
  {
    if from != to {
      var rest := RemoveAt(s, from);
      var r := MoveItem(s, from, to);
      assert r == rest[..to] + [s[from]] + rest[to..];
      forall i | 0 <= i < |s|
        ensures r[i] == ShiftedAt(s, from, to, i)
      {
        if i < to {
          assert r[i] == rest[i];
        } else if i > to {
          assert r[i] == rest[i - 1];
        }
      }
    }
  }

  /** Shift, not swap, moving forward: every slot from `from` up to (not including)
      `to` takes the element that was one place later. */
  lemma MoveForwardShifts<T>(s: seq<T>, from: nat, to: nat)
    requires from < to < |s|
    ensures forall i :: from <= i < to ==> MoveItem(s, from, to)[i] == s[i + 1]
    ensures MoveItem(s, from, to)[to] == s[from]
  {
    MoveItemPointwise(s, from, to);
  }

  /** Shift, not swap, moving backward: every slot after `to` up to and including
      `from` takes the element that was one place earlier. */
  lemma MoveBackwardShifts<T>(s: seq<T>, from: nat, to: nat)
    requires to < from < |s|
    ensures forall i :: to < i <= from ==> MoveItem(s, from, to)[i] == s[i - 1]
    ensures MoveItem(s, from, to)[to] == s[from]
  {
    MoveItemPointwise(s, from, to);
  }

  /** Positions outside the closed range between `from` and `to` keep their element. */
  lemma MoveOutsideUnchanged<T>(s: seq<T>, from: nat, to: nat)
    requires from < |s| && to < |s|
    ensures forall i :: 0 <= i < |s| && (i < from || i > to) && (i < to || i > from) ==>
      MoveItem(s, from, to)[i] == s[i]
  {
    MoveItemPointwise(s, from, to);
  }

  /** Out-of-range indices act as the nearest end. */
  lemma MoveClampsIndices<T>(s: seq<T>, fromIndex: int, toIndex: int)
    requires |s| > 0
    ensures MoveItem(s, fromIndex, toIndex) ==
      MoveItem(s, Clamp(fromIndex, |s| - 1), Clamp(toIndex, |s| - 1))
  {
  }

  /** Equal clamped indices leave the sequence unchanged; in particular every move
      on an empty or one-element sequence is a no-op. */
  lemma MoveSameSlotIsNoOp<T>(s: seq<T>, fromIndex: int, toIndex: int)
    requires Clamp(fromIndex, |s| - 1) == Clamp(toIndex, |s| - 1) || |s| < 2
    ensures MoveItem(s, fromIndex, toIndex) == s
  {
  }

  lemma RemoveInsertCancel<T>(s: seq<T>, i: nat, x: T)
    requires i <= |s|
    ensures RemoveAt(InsertAt(s, i, x), i) == s
  {
    var t := InsertAt(s, i, x);
    assert t[..i] == s[..i];
    assert t[i + 1..] == s[i..];
  }

  lemma InsertRemoveCancel<T>(s: seq<T>, i: nat)
    requires i < |s|
    ensures InsertAt(RemoveAt(s, i), i, s[i]) == s
  {
    var rest := RemoveAt(s, i);
    assert rest[..i] == s[..i];
    assert rest[i..] == s[i + 1..];
  }

  /** Round trip: moving `a` to `b` and then `b` back to `a` restores the sequence. */
  lemma MoveRoundTrip<T>(s: seq<T>, a: nat, b: nat)
    requires a < |s| && b < |s|
    ensures MoveItem(MoveItem(s, a, b), b, a) == s
  {
    if a != b {
      var rest := RemoveAt(s, a);
      var t := MoveItem(s, a, b);
      assert t == InsertAt(rest, b, s[a]);
      assert t[b] == s[a];
      RemoveInsertCancel(rest, b, s[a]);
      assert MoveItem(t, b, a) == InsertAt(rest, a, s[a]);
      InsertRemoveCancel(s, a);
    }
  }

  /** Every element of `s` mapped through `f`, in order. */
  function Project<T, U>(s: seq<T>, f: T -> U): (r: seq<U>)
    ensures |r| == |s|
    ensures forall i :: 0 <= i < |s| ==> r[i] == f(s[i])
  {
    if |s| == 0 then [] else [f(s[0])] + Project(s[1..], f)
  }

  /** Projecting commutes with reading one slot of the shift. */
  lemma ShiftedAtProject<T, U>(s: seq<T>, f: T -> U, from: nat, to: nat, i: nat)
    requires from < |s| && to < |s| && i < |s|
    ensures ShiftedAt(Project(s, f), from, to, i) == f(ShiftedAt(s, from, to, i))
  {
  }

  /** Moving commutes with projecting each element (the engine moves the cached
      positions and reads the items out of them). */
  lemma MoveCommutesWithMap<T, U>(s: seq<T>, f: T -> U, fromIndex: int, toIndex: int)
    ensures MoveItem(Project(s, f), fromIndex, toIndex) == Project(MoveItem(s, fromIndex, toIndex), f)
  {
    var m := Project(s, f);
    if |s| > 0 {
      var from := Clamp(fromIndex, |s| - 1);
      var to := Clamp(toIndex, |s| - 1);
      MoveClampsIndices(s, fromIndex, toIndex);
      MoveClampsIndices(m, fromIndex, toIndex);
      var l := MoveItem(m, from, to);
      var moved := MoveItem(s, from, to);
      var r := Project(moved, f);
      MoveItemPointwise(s, from, to);
      MoveItemPointwise(m, from, to);
      forall i | 0 <= i < |s|
        ensures l[i] == r[i]
      {
        ShiftedAtProject(s, f, from, to, i);
      }
      assert l == r;
    }
  }

  /** `moveItemInArray` as the source writes it: the clamped loop that shifts
      elements one slot at a time towards the vacated position and then writes the
      moved element at `to`. It computes exactly the reference definition. */
  method MoveItemInArray<T>(a: seq<T>, fromIndex: int, toIndex: int) returns (r: seq<T>)
    ensures r == MoveItem(a, fromIndex, toIndex)
  {
    r := a;
    var from := Clamp(fromIndex, |a| - 1);
    var to := Clamp(toIndex, |a| - 1);
    if from == to {
      return;
    }
    assert 0 <= from < |a| && 0 <= to < |a|;
    var target := r[from];
    var delta := if to < from then -1 else 1;
    var i := from;
    while i != to
      invariant |r| == |a|
      invariant 0 <= from < |a| && 0 <= to < |a|
      invariant delta == 1 ==> from <= i <= to
      invariant delta == -1 ==> to <= i <= from
      invariant delta == 1 || delta == -1
      invariant delta == 1 <==> from < to
      invariant forall k :: delta == 1 && from <= k < i ==> r[k] == a[k + 1]
      invariant forall k :: delta == -1 && i < k <= from ==> r[k] == a[k - 1]
      invariant forall k :: 0 <= k < |a| && !(delta == 1 && from <= k < i) && !(delta == -1 && i < k <= from) ==>
        r[k] == a[k]
      decreases if delta == 1 then to - i else i - to
    {
      assert r[i + delta] == a[i + delta];
      r := r[i := r[i + delta]];
      i := i + delta;
    }
    r := r[to := target];
    MoveItemPointwise(a, from, to);
    forall k | 0 <= k < |a|
      ensures r[k] == MoveItem(a, fromIndex, toIndex)[k]
    {
      assert r[k] == ShiftedAt(a, from, to, k);
    }
  }
}

=== FILE: scenario.dfy ===
/** A worked gesture over concrete geometry: three items stacked in one
    container, the first dragged onto the third slot and released. */
module Scenarios {
  import opened Basics
  import opened Geometry
  import DragDropRegistry
  import DropListRefer
  import Reorder
  import opened DragRefer

  /** The container spans three 100-pixel rows. */
  const ListRect: Rect := Rect(0, 0, 100, 300, 100, 300)

  /** Row `k` of the container. */
  function SlotRect(k: int): Rect {
    Rect(100 * k, 0, 100, 100 * k + 99, 100, 99)
  }

  /** Item `i` sits in row `i - 1`; the topmost element is inside container 0. */
  const Rows: Scene := Scene(
    (c: ContainerId) => ListRect,
    (i: ItemId) => SlotRect(i - 1),
    (i: ItemId) => SlotRect(i - 1),
    (c: ContainerId, k: nat) => SlotRect(k),
    Element({0}))

  const World0: World := World(DragDropRegistry.Initial, map[0 := DropListRefer.Create(0, ListRect, [1, 2, 3])], [])

  /** The gesture's intermediate steps. */
  function Pressed(): Step {
    PointerDown(DragRefer.Create(1, Some(0)), World0, PointerEvent("mousedown", Point(50, 50)), 0, Point(0, 0), SlotRect(0))
  }

  function Started(): Step {
    PointerMove(Pressed().drag, Pressed().world, PointerEvent("mousemove", Point(50, 50)), 0, Rows)
  }

  /** The first move starts the drag: the container caches the three items in
      order and the item's index 0 is captured. */
  lemma StartCapturesIndex()
    ensures var s := Started();
      var l := s.world.lists[0];
      && s.drag.hasStartedDragging && s.drag.moveSubscribed && s.drag.upSubscribed && s.drag.container == Some(0) && !s.drag.closed
      && s.drag.initialContainer == Some(0) && s.drag.previousIndex == 0 && s.drag.scroll == Point(0, 0)
      && l.draggables == [1, 2, 3] && l.isDragging && l.lasteItem == -1 && l.siblings == []
      && l.rect == ListRect && l.overlay == Some([1, 2, 3]) && l.id == 0 && s.world.lists.Keys == {0}
      && Reorder.Project(l.positions, DropListRefer.DragOf) == [1, 2, 3]
      && s.world.log == [BeforeStarted(1), ListBeforeStarted(0)]
  {
    var s := Started();
    var l := s.world.lists[0];
    assert Reorder.Project(l.positions, DropListRefer.DragOf) == [1, 2, 3];
  }

  /** What the started gesture looks like, as far as the rest of it depends on. */
  predicate StartedShape(s: Step) {
    && s.drag.id == 1 && s.drag.hasStartedDragging && s.drag.moveSubscribed && s.drag.upSubscribed && !s.drag.closed
    && s.drag.container == Some(0) && s.drag.initialContainer == Some(0)
    && s.drag.previousIndex == 0 && s.drag.scroll == Point(0, 0)
    && s.world.lists.Keys == {0} && StartedList(s.world.lists[0])
  }

  /** The container as the drag starts. */
  predicate StartedList(l: DropListRefer.DropList) {
    && l.draggables == [1, 2, 3] && l.isDragging && l.lasteItem == -1 && l.siblings == []
    && l.rect == ListRect && l.overlay == Some([1, 2, 3]) && l.id == 0
    && Reorder.Project(l.positions, DropListRefer.DragOf) == [1, 2, 3]
  }

  /** The third row resolves as the target slot of item 1. */
  lemma ThirdRowIsTarget(l: DropListRefer.DropList)
    requires StartedList(l)
    ensures DropListRefer.IndexOfDrag(l.positions, 1) == 0
    ensures DropListRefer.ItemIndexFromPointer(ChildRects(l, Rows), Point(50, 250), 0) == 2
  {
    assert l.positions[0].drag == 1;
    DropListRefer.IndexOfDragIsFirst(l.positions, 1, 0);
    var p := Point(50, 250);
    var rects := ChildRects(l, Rows);
    assert rects == [SlotRect(0), SlotRect(1), SlotRect(2)];
    assert !IsInsideClientRect(rects[1], p) && IsInsideClientRect(rects[2], p);
    assert DropListRefer.ResolveFrom(rects, p, 0, 2) == 2;
    assert DropListRefer.ResolveFrom(rects, p, 0, 1) == 2;
  }

  /** Sorting item 1 at the third row moves it to the end without a fault. */
  lemma SortInThirdRow(l: DropListRefer.DropList)
    requires StartedList(l)
    ensures var sorted := DropListRefer.SortItem(l, 1, Point(50, 250), ChildRects(l, Rows));
      && sorted.fault.None? && sorted.list.draggables == [2, 3, 1] && sorted.list.isDragging
      && sorted.list.id == 0 && DropListRefer.IndexOfDrag(sorted.list.positions, 1) == 2
  {
    var p := Point(50, 250);
    var rects := ChildRects(l, Rows);
    ThirdRowIsTarget(l);
    assert IsPointerNear(l.rect, p);
    DropListRefer.SortMovesToResolvedSlot(l, 1, p, rects);
    FirstToLast();
    var sorted := DropListRefer.SortItem(l, 1, p, rects);
    EndIndex(sorted.list.positions);
  }

  /** The single-step move of the first of three to the last slot. */
  lemma FirstToLast()
    ensures Reorder.MoveItem([1, 2, 3], 0, 2) == [2, 3, 1]
  {
    assert Reorder.RemoveAt([1, 2, 3], 0) == [2, 3];
  }

  /** In the order [2, 3, 1], item 1 is at index 2. */
  lemma EndIndex(positions: seq<DropListRefer.ItemPosition>)
    requires Reorder.Project(positions, DropListRefer.DragOf) == [2, 3, 1]
    ensures DropListRefer.IndexOfDrag(positions, 1) == 2
  {
    assert positions[0].drag == 2 && positions[1].drag == 3 && positions[2].drag == 1;
    DropListRefer.IndexOfDragIsFirst(positions, 1, 2);
  }

  /** From the started shape, the move into the third row sorts item 1 to the
      end, silently. */
  lemma SortMovesToEnd(s2: Step)
    requires StartedShape(s2)
    ensures var s := PointerMove(s2.drag, s2.world, PointerEvent("mousemove", Point(50, 250)), 10, Rows);
      var l := s.world.lists[0];
      && s.drag == s2.drag.(hasMoved := true)
      && s.world.lists.Keys == {0} && l.draggables == [2, 3, 1] && l.isDragging && l.id == 0
      && DropListRefer.IndexOfDrag(l.positions, 1) == 2
      && s.world.log == s2.world.log
  {
    var l2 := s2.world.lists[0];
    assert StartedList(l2);
    SortInThirdRow(l2);
    var p := Point(50, 250);
    var d1 := s2.drag.(hasMoved := true);
    DropListRefer.NoSiblingsNoneFound(s2.world.lists, l2, 1, p, Rows.topmost);
    assert HandOffTarget(d1, s2.world, p, Rows.topmost).None?;
  }

  /** From the sorted shape, releasing and settling drops the item at index 2,
      with the index 0 captured at start on the container's notification. */
  lemma ReleaseAndSettle(s3: Step)
    requires s3.drag.id == 1 && s3.drag.hasStartedDragging && s3.drag.upSubscribed && s3.drag.hasMoved && !s3.drag.closed
    requires s3.drag.container == Some(0) && s3.drag.initialContainer == Some(0) && s3.drag.previousIndex == 0
    requires s3.world.lists.Keys == {0} && s3.world.log == [BeforeStarted(1), ListBeforeStarted(0)]
    requires var l := s3.world.lists[0];
      l.draggables == [2, 3, 1] && l.isDragging && l.id == 0 && DropListRefer.IndexOfDrag(l.positions, 1) == 2
    ensures var s4 := PointerUp(s3.drag, s3.world, PointerEvent("mouseup", Point(50, 250)), 0);
      var s := SettleDrop(s4.drag, s4.world);
      && s.world.lists[0].draggables == [2, 3, 1]
      && s.world.log == [BeforeStarted(1), ListBeforeStarted(0), Released(1), Dropped(1, 2, 2),
                         ListDropped(DropListRefer.DroppedNote(1, 2, 0, 0))]
      && s.drag.container == Some(0) && !IsDragging(s.drag, s.world)
  {
    var s4 := PointerUp(s3.drag, s3.world, PointerEvent("mouseup", Point(50, 250)), 0);
    assert s4.world.log == [BeforeStarted(1), ListBeforeStarted(0), Released(1)];
    SettleDropBookkeeping(s4.drag, s4.world);
  }

  /** Press on item 1, start the drag, move into the third row, release and let
      the preview settle: the container ends up as [2, 3, 1], and the
      notifications are `beforeStarted`, the container's `beforeStarted`,
      `released`, the item's `dropped` (from 2 to 2: both indices are read after
      the sort) and the container's `dropped` (from the index 0 captured at
      start to 2). */
  lemma DragFirstToLast(moved: Step, released: Step, settled: Step)
    requires moved == PointerMove(Started().drag, Started().world, PointerEvent("mousemove", Point(50, 250)), 10, Rows)
    requires released == PointerUp(moved.drag, moved.world, PointerEvent("mouseup", Point(50, 250)), 0)
    requires settled == SettleDrop(released.drag, released.world)
    ensures settled.world.lists[0].draggables == [2, 3, 1]
    ensures settled.world.log == [BeforeStarted(1), ListBeforeStarted(0), Released(1), Dropped(1, 2, 2),
                                  ListDropped(DropListRefer.DroppedNote(1, 2, 0, 0))]
    ensures settled.drag.container == Some(0) && !IsDragging(settled.drag, settled.world)
  {
    StartCapturesIndex();
    var s2 := Started();
    assert StartedShape(s2);
    SortMovesToEnd(s2);
    ReleaseAndSettle(moved);
  }
}
